=== FILE: README.md ===
# Collaborative canvas: stroke log and reconciliation, modelled in Dafny

This project models the stroke synchronisation core of a collaborative drawing app. Several users draw on one shared canvas.

- A room on the server keeps the authoritative **operation log**. It is an append-only list of committed strokes, with a room-wide redo stack.
- Every browser keeps its own copy of that list. It repaints that copy onto an offscreen **buffer**, paints strokes still in flight on an **overlay**, and composites both onto the visible canvas once per frame.

Pointer gestures become `stroke:begin`, `stroke:point` and `stroke:end` events. The room answers a finished stroke with a `stroke:commit` sent to everyone, the author included. It answers undo with a `revoke` and redo with a `reapply`.

Every piece is a pure function over immutable data:

| module | file | what it models |
|---|---|---|
| `Js` | js.dfy | the JavaScript values the handlers test: optional fields, numbers that may be NaN or infinite, truthiness, `Math.min`/`Math.max`, `slice(0, 2)` |
| `Decimal`, `OpIds` | decimal.dfy, op_ids.dfy | operation ids `now-seq-nonce`; the sequence number can be read back from the id |
| `OrderedMap` | ordered_map.dfy | a JavaScript `Map` (insertion-ordered, keyed by socket id) |
| `Protocol` | protocol.dfy | users, ops, stroke meta, the client events and the server messages with their audience (sender, others, everyone) |
| `DrawingState` | drawing_state.dfy | the log: `createOperation`, `undo`, `redo`, `reset`, and the id-uniqueness invariant |
| `Rooms` | rooms.dfy | the per-connection handlers of a room, and the room registry with the server's connection handler |
| `Geometry` | geometry.dfy | the path a stroke is drawn with (dot, quadratic curves through midpoints, closing line) and its style |
| `Canvas` | canvas.dfy | the client view: ops, in-flight remote strokes, the local gesture, and the surfaces as lists of painted strokes |
| `Dispatch` | dispatch.dfy | the client's handler table for server messages, and the size, undo, redo and clear buttons |
| `Sync` | sync.dfy | one room plus one observed client under in-order delivery, and when their op lists agree |

Environment inputs are parameters:

- the clock (`Date.now()`, read once for the id and once for `committedAt`) and the random id suffix are an `Env` value;
- the temp id of a gesture and the user id of a connection are plain arguments;
- pointer positions are points in canvas coordinates.

A surface is modelled as the list of strokes painted on it since it was last cleared. The buffer is *consistent* when it equals `Painted(ops)`: the strokes of the ops, in log order, skipping ops without points.

The main result is `Sync.ClientTracksLog`. Take a client that joins while the log is empty, and assume every message reaches it in order. Then, whatever the other connections do, its op list equals the room's log for as long as it stays connected. The proof needs the log's ids to be unique, so that the client's revoke-by-id removes the same op as the room's undo. That uniqueness is `DrawingState.LogInv`, which every handler preserves. The lemmas after it show where the two lists part:

- a late joiner, because `init` always carries an empty op list;
- a duplicated commit;
- the clear button.

Two places where a reader might expect more than the code does. The model follows the code in both:

- **Duplicate commits.** A reader might expect a second delivery of the same commit to be harmless. The client's commit handler (client/canvas.js:56-65) appends without checking ids, so a second delivery adds the op again (`Sync.DuplicateCommitDiverges`).
- **Where `applyFullOps` is used.** A reader might expect it to load the room's history on join, or to resynchronise after undo and redo. The client calls it only from the `init` handler (client/main.js:76), and always with an empty list (`Dispatch.OnMessage`). Undo and redo reach the client only as `revoke` and `reapply` (client/main.js:89-96).

The client's handler table (`Dispatch.OnMessage`) uses the remote-stroke and pointer handlers as written. The corrected versions of the two findings below are separate members with the intended properties proved about them.

## Model

| member | source | states |
|---|---|---|
| DrawingState.Initial | server/drawing-state.js:5-11 | a new log has no users, ops, redo entries or cursors, and sequence 0 |
| DrawingState.NormalizeTool | server/drawing-state.js:18 | the op's tool is `eraser` exactly when the message asked for `eraser`, otherwise `brush` |
| DrawingState.NormalizeColor | server/drawing-state.js:19 | a present non-empty colour is kept; a missing or empty one becomes the user's colour |
| DrawingState.NormalizeSize | server/drawing-state.js:20 | the size always lies in [1, 100]; a missing, zero or NaN size becomes 4; sizes in range are kept; larger sizes or +Infinity give 100; smaller non-zero sizes or -Infinity give 1 |
| DrawingState.NormalizePoints | server/drawing-state.js:21 | the point array is kept as sent; a missing or non-array value becomes the empty list |
| DrawingState.CreateOperation | server/drawing-state.js:13-26 | exactly one op is appended; its id carries the current sequence number, which then advances; its fields are the normalised message fields, its author and the second clock reading; the redo stack, users and cursors are untouched |
| OpIds.SeqOfFormatId | server/drawing-state.js:14 | reading the sequence number back from `now-seq-nonce` gives `seq`, whatever the clock and nonce |
| Decimal.DigitsInjective | server/drawing-state.js:14 | different sequence numbers print as different decimal numerals |
| OpIds.DistinctSeqDistinctIds | server/drawing-state.js:14 | ids built from different sequence numbers differ |
| DrawingState.Undo | server/drawing-state.js:28-33 | on an empty log nothing changes and no op is returned; otherwise the newest op leaves the log and becomes the top of the redo stack |
| DrawingState.Redo | server/drawing-state.js:35-40 | on an empty redo stack nothing changes; otherwise its top goes back onto the end of the log |
| DrawingState.Reset | server/drawing-state.js:42-46 | log, redo stack and sequence are cleared; users and cursors stay |
| DrawingState.UndoThenRedo | server/drawing-state.js:28-40 | undo followed by redo restores the whole state and returns the newest op |
| DrawingState.RedoThenUndo | server/drawing-state.js:28-40 | redo followed by undo restores the whole state and returns the redo top |
| DrawingState.StrokeKeepsRedoStack | server/drawing-state.js:13-40 | a new stroke does not clear the redo stack: after undo, stroke and redo, the undone op comes back after the new one |
| DrawingState.CreateOperationKeepsLogInv | server/drawing-state.js:13-26 | appending keeps every id in log and redo stack unique and stamped below the next sequence number |
| DrawingState.UndoMovesOneOp | server/drawing-state.js:28-33 | undo only moves an op from the log to the redo stack: together they hold the same ops and ids |
| DrawingState.RedoMovesOneOp | server/drawing-state.js:35-40 | redo only moves an op from the redo stack to the log: together they hold the same ops and ids |
| DrawingState.UndoKeepsLogInv | server/drawing-state.js:28-33 | undo keeps the ids unique |
| DrawingState.RedoKeepsLogInv | server/drawing-state.js:35-40 | redo keeps the ids unique |
| DrawingState.ResetKeepsLogInv | server/drawing-state.js:42-46 | reset re-establishes the invariant |
| DrawingState.NewestIdIsUnique | server/drawing-state.js:13-33 | under the invariant, the id of the newest op occurs nowhere earlier in the log |
| OrderedMap.Set | server/rooms.js:22 | the key maps to the new value and other keys are unchanged; a new key goes at the end, and an existing key keeps its place |
| OrderedMap.Delete | server/rooms.js:77 | the key is gone and every other key keeps its value |
| Rooms.NewRoom | server/rooms.js:7-14 | a new room has an empty log and redo stack, no users or cursors, sequence 0, and satisfies the id invariant |
| Rooms.Join | server/rooms.js:16-31 | the user is named `User-(n+1)` and coloured with palette entry `n mod 10`, where n is the number of users present; the joiner receives `init` with the user list and an empty op list, and the others receive `user:join` |
| Rooms.OnCursor | server/rooms.js:34-39 | a payload without finite x and y (or no payload at all) changes nothing and sends nothing; otherwise the cursor is stored under the user and relayed to the others only |
| Rooms.StartOf | server/rooms.js:47 | a start array is cut to its first two entries; no array gives the origin |
| Rooms.OnBegin | server/rooms.js:42-51 | the room is unchanged; one relay goes to the others, carrying the normalised tool, colour and size, the cut start and the server time |
| Rooms.OnPoint | server/rooms.js:53-57 | a point that is not an array is dropped; otherwise its first two entries are relayed to the others with the server time |
| Rooms.OnEnd | server/rooms.js:59-62 | the log grows by exactly the created op, and its commit goes to everyone, the author included |
| Rooms.OnUndo | server/rooms.js:65-68 | the room undoes; the id of the removed op goes to everyone; on an empty log nothing is sent |
| Rooms.OnRedo | server/rooms.js:70-73 | the room redoes; the restored op goes to everyone; on an empty redo stack nothing is sent |
| Rooms.OnDisconnect | server/rooms.js:76-84 | the socket and its cursor are removed and everyone hears of it; other sockets keep their users; the log is reset exactly when nobody is left |
| Rooms.Handle | server/rooms.js:33-84 | each event sends at most one message; cursor and stroke relays leave the log alone and go to the others only; commits, undo, redo and leaving go to everyone; whenever the log changes, exactly one message goes to everyone |
| Rooms.HandleKeepsLogInv | server/rooms.js:33-84 | no handler breaks the uniqueness of op ids |
| Rooms.GetRoom | server/rooms.js:93-98 | an existing room is returned untouched; an unknown id gets a new empty room, registered under that id |
| Rooms.GetRoomTwice | server/rooms.js:93-98 | asking again for the same id returns the same room and registry; other rooms are never touched |
| Rooms.Connect | server/server.js:21-25 | every connection joins the `default` room; an existing room keeps its log and the other sockets' users, and names the joiner after the users present; a fresh one starts empty with the joiner as `User-1` in the first palette colour |
| Rooms.FirstUser | server/rooms.js:16-22 | the first user of a room is `User-1` in the first palette colour, and is its only user |
| Rooms.JoinKeepsOthers | server/rooms.js:16-31 | joining touches only the joiner's entry: log, redo stack and every other socket's user stay |
| Rooms.SecondUser | server/rooms.js:16-20 | joining a room with one user present makes the joiner `User-2` in the second palette colour |
| Rooms.ConnectTwiceSharesRoom | server/server.js:21-25 | two connections land in the same room: the first stays registered when the second joins, and on a fresh server they are `User-1` and `User-2` in the first two palette colours |
| Geometry.StrokePath | client/canvas.js:217-233 | no points give no path; a path starts by moving to the first point and ends with a line: to a point just off the only point for a dot, otherwise to the last point |
| Geometry.StrokePathShape | client/canvas.js:217-233 | a path starts at the first point and ends at the last; one point gives a dot, and the interior points give curves |
| Geometry.StrokePathSmooth | client/canvas.js:224-232 | with three or more points, each curve ends halfway between its control point and the next one, and the closing line starts halfway between the last two points |
| Geometry.BuildPath | client/canvas.js:217-233 | the drawing loop emits exactly the path above |
| Geometry.CompositeFor | client/canvas.js:215 | a stroke erases exactly when its tool is `eraser` |
| Canvas.InitialView | client/canvas.js:14-21 | a new view has no ops and no in-flight strokes; it is not drawing, has no temp id or gesture points, no self and no pending cursor; buffer, overlay and visible canvas are blank; the pen starts at `#ff6b6b`, size 6, brush |
| Canvas.Flush | client/canvas.js:178-188 | the visible canvas becomes the buffer with the overlay on top; buffer, overlay and ops are unchanged |
| Canvas.DrawStroke | client/canvas.js:208-241 | a stroke without points changes nothing; otherwise it is painted on the chosen surface, and a committing draw clears the overlay |
| Canvas.DrawAllPaints | client/canvas.js:190-196 | repainting every op in order adds exactly their strokes, skipping ops without points |
| Canvas.RedrawBuffer | client/canvas.js:190-196 | after a redraw the buffer shows exactly the ops in log order and the visible canvas is refreshed |
| Canvas.ApplyFullOps | client/canvas.js:41-44 | the ops become the given list and the buffer matches them |
| Canvas.FindIndex | client/canvas.js:68 | the first position holding the id, or none when no op has it |
| Canvas.RevokeOp | client/canvas.js:67-73 | an unknown id changes nothing; otherwise exactly the first op with that id leaves the list and the buffer matches the rest |
| Canvas.ClearLocal | client/canvas.js:280-285 | ops, buffer and overlay are emptied; in-flight strokes and the gesture stay |
| Canvas.RemoteStrokeBeginAsWritten | client/canvas.js:46-48 | an in-flight entry under `userId:tempId` exists afterwards, with no owner, the relayed meta, and the start as its only point; every other entry and the rest of the view are unchanged |
| Canvas.RemoteStrokeBegin | client/canvas.js:46-48 | the corrected entry records its owner; other entries are unchanged |
| Canvas.RemoteStrokePoint | client/canvas.js:49-55 | a point for an unknown stroke is ignored; otherwise it is appended and the grown stroke is painted on the overlay |
| Canvas.RemoteStrokeCollectsPoints | client/canvas.js:49-55 | relayed points for a begun stroke are collected in order, and no other in-flight stroke, op or buffer entry changes |
| Canvas.RemoteStrokeFromBegin | client/canvas.js:46-55 | after a begin as written and its relayed points, the in-flight stroke is the start followed by every point |
| Canvas.RemoteStrokeCommit | client/canvas.js:56-65 | the op is appended without any duplicate check and painted on the buffer, so a consistent buffer stays consistent; in-flight entries owned by the op's user go, and the others stay |
| Canvas.CommitThenRevoke | client/canvas.js:56-73 | a commit of a new id followed by its revoke gives back the ops and the buffer |
| Canvas.CommitKeepsStaleEntry | client/canvas.js:46-65 | as written, a commit never removes the in-flight stroke its own user began |
| Canvas.CommitDropsOwnEntry | client/canvas.js:46-65 | with owners recorded, the commit removes it |
| Canvas.PointerDown | client/canvas.js:111-121 | a gesture starts with the new temp id and the start as its only point, announced with the current pen options |
| Canvas.PointerDownAt | client/canvas.js:111-121 | as written, the gesture starts at the offset from the box cached at the last resize, scaled by the pixel ratio; with the cached box current it agrees with a move's point at the same spot only at ratio 1 or at the corner, and at ratio 1 only when the cached box has the live box's corner |
| Canvas.PointerDownAtCorrected | client/canvas.js:95-121 | with the corrected position, read from the live box, the gesture starts exactly where a move at the same spot would add its point |
| Canvas.MovePosition | client/canvas.js:95-98 | a move's point is the pointer's offset from the live canvas box |
| Canvas.DownPositionAsWritten | client/canvas.js:145-154 | the start point is the pointer's offset in the cached box multiplied by the pixel ratio |
| Canvas.DownPositionAsWrittenOffMove | client/canvas.js:95-154 | as written, with the cached box current, the start point equals a move's point at the same spot only at ratio 1 or at the box's corner; at ratio 1 it equals it exactly when the cached and live boxes share their corner |
| Canvas.DownPositionAsWrittenMisses | client/canvas.js:145-154 | as written, with the cached box current, the start point lands on the buffer pixel under the pointer only at ratio 1 or at the box's corner; at ratio 1, exactly when the cached and live boxes share their corner |
| Canvas.DownPositionAsWrittenOnDenseScreen | client/canvas.js:145-154 | at pixel ratio 2, a press 10 px into the box starts the stroke 20 px in |
| Canvas.DownPositionAsWrittenOnStaleBox | client/canvas.js:95-154 | at ratio 1, with the cached box 240 px from the left and the live box 60 px, a press at 300 starts the stroke 60 px in while a move there adds its point 240 px in |
| Canvas.DownPositionUnderPointer | client/canvas.js:145-154 | the corrected start, like every move, lands on the buffer pixel under the pointer at any pixel ratio |
| Canvas.PointerMove | client/canvas.js:95-108 | the pending cursor is overwritten; during a gesture the point is kept, the overlay shows only the local stroke, and the point is sent |
| Canvas.PointerUp | client/canvas.js:122-136 | outside a gesture nothing happens; otherwise the stroke is painted on the buffer but not added to the ops, the full point list is sent, and the gesture ends |
| Canvas.OptimisticStrokeOutsideOps | client/canvas.js:122-136 | right after a gesture the buffer holds the ops plus the optimistic stroke, so it no longer matches the ops alone |
| Canvas.Frame | client/canvas.js:156-165 | a frame sends the pending cursor once, clears it, and refreshes the visible canvas |
| Canvas.MovesKeepEveryPoint | client/canvas.js:95-108 | during a gesture no point is coalesced: every move is kept and sent in order, and nothing else changes |
| Canvas.MovesCoalesceCursor | client/canvas.js:95-163 | outside a gesture, moves send nothing and the next frame sends only the last position |
| Dispatch.OnMessage | client/main.js:73-98 | `init` empties the ops whatever the message carries; commit and reapply append; revoke removes by id; the shown count follows the ops; the other messages leave the ops alone; a relayed begin leaves an in-flight entry with no owner |
| Dispatch.PageKeepsStaleEntry | client/main.js:83-88 | on the page, a relayed begin followed by its author's commit leaves the in-flight entry behind |
| Dispatch.SizeDown | client/main.js:16-20 | the size goes down by one, never below 1; a size under 2 gives exactly 1 |
| Dispatch.SizeUp | client/main.js:22-26 | the size goes up by one, never above 50; a size over 49 gives exactly 50 |
| Dispatch.SizeStepsInverse | client/main.js:16-26 | up then down gives the size back for sizes from 1 up to 49, and down then up for sizes from 2 up to 50; at the clamped ends it does not come back: 50 goes up and down to 49, and 1 goes down and up to 2 |
| Dispatch.Press | client/main.js:131-133 | undo and redo only send the request; clear empties the local ops and sends nothing; the size buttons set the slider and the pen size together |
| Sync.RevokeNewest | client/canvas.js:67-73 | on a log with unique ids, revoking the newest op's id removes exactly the newest op |
| Sync.StepKeepsSync | server/rooms.js:33-84 | every handler's messages keep a connected client's ops equal to the log |
| Sync.RunKeepsSync | server/rooms.js:33-84 | the same over any sequence of actions that keeps the client connected |
| Sync.JoinEmptyLogInSync | server/rooms.js:25-29 | a client joining an empty log starts in sync |
| Sync.ClientTracksLog | server/rooms.js:59-73 | a client that joined an empty log keeps exactly the room's log for as long as it stays connected |
| Sync.RunKeepsLogInv | server/rooms.js:16-84 | the uniqueness of op ids holds after any actions |
| Sync.LeaverIsSilent | server/rooms.js:34-84 | once a connection has left, its cursor is forgotten, and the next event from its socket changes nothing and relays nothing |
| Sync.LateJoinerMissesLog | server/rooms.js:25-29 | a client joining a non-empty log starts with no ops |
| Sync.UndoPassesEmptyClient | client/canvas.js:67-73 | another user's undo removes the log's newest op while a client with no ops keeps none |
| Sync.LateJoinerIgnoresRevoke | client/canvas.js:67-73 | a late joiner ignores the revoke of an op it never saw, while the log drops that op |
| Sync.DuplicateCommitDiverges | client/canvas.js:56-65 | a commit delivered twice leaves the client with the op twice and the log with it once |
| Sync.ClearLeavesLogBehind | client/main.js:133 | clearing empties the client's ops and tells nobody, so a non-empty log is left behind |
| Sync.GestureCommitsItsPoints | client/canvas.js:122-136 | pointer down, moves and up end in an op whose points are exactly the gesture's points, committed to everyone |

## Left out

- Rendering to pixels. A surface is the list of strokes painted on it. Rasterisation, round caps and joins, translucency, and what `destination-out` does to pixels are not modelled. Neither are overlay resizing and the device-pixel-ratio setup in `resizeToParent`, except the ratio used by the pointer-position finding.
- Floating point. Coordinates and sizes are exact reals, so midpoints and scaling are exact.
- Points are arrays of numbers (`Coords`), as on the wire. The path builder works on `Point(x, y)` pairs, which is all the client ever produces.
- Canvas.PointerDownAt: the cached box and the live box are inputs. When the cached box goes stale is not modelled: the resize handlers that refresh it (client/canvas.js:275, client/main.js:140-145) and the delayed resize after a sidebar toggle (client/main.js:162-168) are timing, which the model does not follow. Before the first resize `_eventPoint` falls back to the live box; the page resizes at start-up (client/main.js:145), so the model always reads the cached one.
- Canvas.DownPositionAsWritten: takes the ratio of backing-store width to box width as the pixel ratio that the resize installs. It does not divide the two sizes, so a box of zero width, which would make the ratio non-finite, is not modelled.
- DrawingState.NormalizeSize: a size is a number (finite, NaN or infinite) or absent. A string or object, which `Math.min` would coerce, is not modelled.
- A `null` message body. The handlers' `msg = {}` default covers only a missing body; a `null` body throws in the source. Cursor payloads handle `null` through `payload || {}`, which the model covers as an absent payload.
- The `t` timestamps clients put on their events are ignored by the room, which stamps its own. They are left out of the client events.
- Rooms.Join: the user count is the length of the association list. It equals the `Map`'s size because `Set` replaces a present key, but that the keys stay distinct is not stated as an invariant.
- Socket.IO's `broadcast` and `io.emit` reach every connection on the server, not just a room's. Since every connection joins the `default` room, the model treats them as room-wide.
- The transport (websocket.js), the latency probe, the FPS metric, and the DOM work of the handlers: cursor badges, the user list, the op-count label beyond the number it shows. Also left out are the text tool, the pen-type menu, the colour input, the tool buttons, the sidebar and export.
- `Date.now()`, the random id suffix, `Math.random()` temp ids and `performance.now()` are parameters, not sources of values.
- Sync: delivery is in order and immediate. Everything a handler sends reaches the client before the next action, and the client's own local gestures are not interleaved. They never touch its op list; only the clear button does, which `Sync.ClearLeavesLogBehind` covers.
- The iteration order of the client's in-flight map is irrelevant to the cleanup, which is modelled as a filter.
- HTML range-input clamping of the size slider is not modelled; the buttons' own clamps are.

## Findings

| source | as written | input that shows it | evidently intended | confidence | as-written member | corrected member |
|---|---|---|---|---|---|---|
| client/canvas.js:46-61 | the in-flight entry is the relayed meta plus points; the meta has no `userId`, so the commit cleanup's `s.userId === op.userId` never holds and entries are never removed | user `u` begins temp stroke `t`, then `u`'s op commits: the entry `u:t` stays | entries record their owner, so a user's commit drops their in-flight strokes | not executed; high | Canvas.CommitKeepsStaleEntry | Canvas.CommitDropsOwnEntry |
| client/canvas.js:145-154 | the start point is scaled by backing-store width over box width, the pixel ratio after a resize, although moves use CSS offsets and the drawing transform already scales by that ratio; it is also measured from the box cached at the last resize, while moves read the live box | pixel ratio 2, box at (0, 0), press at (10, 10): start point (20, 20), first move (10, 10); or ratio 1, cached box at 240 and live box at 60 after a sidebar toggle, press at 300: start 60, move 240 | the start point in CSS pixels from the live box, like every move | not executed; medium | Canvas.DownPositionAsWrittenOffMove | Canvas.PointerDownAtCorrected |

=== FILE: canvas.dfy ===
/**
 * The client's canvas view: the committed ops it believes in, the remote
 * strokes in flight, the local pointer gesture, and three abstract
 * surfaces. A surface is the sequence of strokes painted on it since it
 * was last cleared; the visible canvas is refreshed from the buffer and
 * the overlay when the view flushes.
 */
module Canvas {
  import opened Js
  import opened Protocol
  import opened Geometry

  /** The pen options the toolbar sets. */
  datatype Opts = Opts(color: string, size: real, tool: string)

  const InitialOpts: Opts := Opts("#ff6b6b", 6.0, "brush")

  /** Anything the view paints: a committed op, a remote stroke in flight, or the local gesture. */
  datatype Stroke = Stroke(tool: string, color: string, size: real, points: seq<Coords>)

  function OpStroke(op: Op): Stroke {
    Stroke(op.tool, op.color, op.size, op.points)
  }

  /**
   * A remote stroke in flight: the relayed meta spread into a record, plus
   * its points. `userId` is the field the commit handler compares; the
   * relayed meta does not carry one.
   */
  datatype TempStroke = TempStroke(userId: Option<string>, meta: Meta, points: seq<Coords>)

  function TempStrokeOf(s: TempStroke): Stroke {
    Stroke(s.meta.tool, s.meta.color, s.meta.size, s.points)
  }

  /**
   * One stroke as painted on a surface: its composition, colour, width and
   * points. It records the points rather than the path drawn through them;
   * that path is `Geometry.StrokePath` of the points, stated and proved
   * separately, and the surfaces here do not use it.
   */
  datatype Drawn = Drawn(mode: Composite, color: string, width: real, points: seq<Coords>)

  function Render(s: Stroke): Drawn {
    Drawn(CompositeFor(s.tool), StrokeColor(s.color), LineWidth(s.size), s.points)
  }

  /** The cursor waiting to be sent at the next frame. */
  datatype CursorPos = CursorPos(x: real, y: real, tool: string, color: string)

  datatype View = View(
    self: Option<User>,
    opts: Opts,
    down: bool,
    tempId: Option<string>,
    localPoints: seq<Coords>,
    remoteActive: map<string, TempStroke>,
    ops: seq<Op>,
    buffer: seq<Drawn>,
    overlay: seq<Drawn>,
    visible: seq<Drawn>,
    cursorPending: Option<CursorPos>)

  function InitialView(): (v: View)
    ensures v.ops == [] && v.remoteActive == map[]
    ensures !v.down && v.tempId == None && v.localPoints == []
    ensures v.buffer == [] && v.overlay == [] && v.visible == []
    ensures v.self == None && v.opts == InitialOpts && v.cursorPending == None
  {
    View(None, InitialOpts, false, None, [], map[], [], [], [], [], None)
  }

  function AsCoords(p: Point): Coords {
    [p.x, p.y]
  }

  // ---- Surfaces ----

  datatype Layer = BufferLayer | OverlayLayer

  /**
   * `_drawStroke`: a stroke without points paints nothing and clears
   * nothing; otherwise it is painted on the layer, and a committing draw
   * then clears the overlay.
   */
  function DrawStroke(v: View, layer: Layer, s: Stroke, commit: bool): (r: View)
    ensures |s.points| == 0 ==> r == v
    ensures |s.points| > 0 ==>
      && r.buffer == (if layer.BufferLayer? then v.buffer + [Render(s)] else v.buffer)
      && r.overlay == (if commit then [] else if layer.BufferLayer? then v.overlay else v.overlay + [Render(s)])
    ensures r == v.(buffer := r.buffer, overlay := r.overlay)
  {
    if |s.points| < 1 then v
    else
      var painted := if layer.BufferLayer? then v.(buffer := v.buffer + [Render(s)])
                     else v.(overlay := v.overlay + [Render(s)]);
      if commit then painted.(overlay := []) else painted
  }

  /** `_flushComposite`: the visible canvas becomes the buffer with the overlay on top. */
  function Flush(v: View): (r: View)
    ensures r.visible == v.buffer + v.overlay
    ensures r.buffer == v.buffer && r.overlay == v.overlay && r.ops == v.ops
    ensures r == v.(visible := r.visible)
  {
    v.(visible := v.buffer + v.overlay)
  }

  /** What painting `op` leaves on the buffer: one stroke, or nothing when it has no points. */
  function Ink(op: Op): seq<Drawn> {
    if |op.points| > 0 then [Render(OpStroke(op))] else []
  }

  /** The buffer content that exactly represents `ops`, in log order. */
  function Painted(ops: seq<Op>): seq<Drawn> {
    if |ops| == 0 then [] else Ink(ops[0]) + Painted(ops[1..])
  }

  lemma {:induction false} PaintedAppend(a: seq<Op>, b: seq<Op>)
    ensures Painted(a + b) == Painted(a) + Painted(b)
    decreases |a|
  {
    if |a| > 0 {
      assert (a + b)[1..] == a[1..] + b;
      PaintedAppend(a[1..], b);
    } else {
      assert a + b == b;
    }
  }

  /** The loop of `_redrawBuffer`: each op is painted on the buffer as a committing draw. */
  function DrawAll(v: View, ops: seq<Op>): View
    decreases |ops|
  {
    if |ops| == 0 then v else DrawAll(DrawStroke(v, BufferLayer, OpStroke(ops[0]), true), ops[1..])
  }

  /** Painting every op appends exactly their ink, and the overlay is cleared once anything was painted. */
  lemma {:induction false} DrawAllPaints(v: View, ops: seq<Op>)
    ensures DrawAll(v, ops).buffer == v.buffer + Painted(ops)
    ensures DrawAll(v, ops).overlay == if Painted(ops) == [] then v.overlay else []
    ensures DrawAll(v, ops) == v.(buffer := DrawAll(v, ops).buffer, overlay := DrawAll(v, ops).overlay)
    decreases |ops|
  {
    if |ops| > 0 {
      var v1 := DrawStroke(v, BufferLayer, OpStroke(ops[0]), true);
      DrawAllPaints(v1, ops[1..]);
      assert v1.buffer == v.buffer + Ink(ops[0]);
    }
  }

  /** `_redrawBuffer`: the buffer is cleared and repainted to hold exactly `ops`, in order. */
  function RedrawBuffer(v: View): (r: View)
    ensures r.buffer == Painted(v.ops)
    ensures r.overlay == if Painted(v.ops) == [] then v.overlay else []
    ensures r.visible == r.buffer + r.overlay
    ensures r == v.(buffer := r.buffer, overlay := r.overlay, visible := r.visible)
  {
    DrawAllPaints(v.(buffer := []), v.ops);
    Flush(DrawAll(v.(buffer := []), v.ops))
  }

  /** The buffer shows exactly the committed ops. */
  ghost predicate Consistent(v: View) {
    v.buffer == Painted(v.ops)
  }

  // ---- Committed ops ----

  /** `opCount`. */
  function OpCount(v: View): nat {
    |v.ops|
  }

  /** `applyFullOps`: the ops are replaced by the given list and the buffer is rebuilt from it. */
  function ApplyFullOps(v: View, list: seq<Op>): (r: View)
    ensures r.ops == list
    ensures Consistent(r)
    ensures r.remoteActive == v.remoteActive && r.down == v.down && r.localPoints == v.localPoints
  {
    RedrawBuffer(v.(ops := list))
  }

  /** The first position of an op with id `id`. */
  function FindIndex(ops: seq<Op>, id: string): (r: Option<nat>)
    ensures r.None? ==> forall i | 0 <= i < |ops| :: ops[i].id != id
    ensures r.Some? ==> r.value < |ops| && ops[r.value].id == id
    ensures r.Some? ==> forall i | 0 <= i < r.value :: ops[i].id != id
  {
    if |ops| == 0 then None
    else if ops[0].id == id then Some(0)
    else
      match FindIndex(ops[1..], id)
      case None => None
      case Some(i) => Some(i + 1)
  }

  /** `revokeOp`: the first op with the id goes and the buffer is rebuilt; an unknown id changes nothing. */
  function RevokeOp(v: View, id: string): (r: View)
    ensures FindIndex(v.ops, id).None? ==> r == v
    ensures FindIndex(v.ops, id).Some? ==>
      var i := FindIndex(v.ops, id).value;
      && r.ops == v.ops[..i] + v.ops[i + 1..]
      && multiset(v.ops) == multiset(r.ops) + multiset{v.ops[i]}
      && Consistent(r)
      && r.remoteActive == v.remoteActive && r.down == v.down && r.localPoints == v.localPoints
  {
    match FindIndex(v.ops, id)
    case None => v
    case Some(i) =>
      assert v.ops == v.ops[..i] + [v.ops[i]] + v.ops[i + 1..];
      RedrawBuffer(v.(ops := v.ops[..i] + v.ops[i + 1..]))
  }

  /** `clearLocal`: both surfaces and the op list are emptied; nothing else changes. */
  function ClearLocal(v: View): (r: View)
    ensures r.ops == [] && r.buffer == [] && r.overlay == [] && r.visible == []
    ensures Consistent(r)
    ensures r.remoteActive == v.remoteActive && r.down == v.down && r.localPoints == v.localPoints
  {
    Flush(v.(buffer := [], overlay := [], ops := []))
  }

  // ---- Remote strokes ----

  /** The text of a temp id in a template string; a missing one prints as `undefined`. */
  function TempIdText(tempId: Option<string>): string {
    if tempId.Some? then tempId.value else "undefined"
  }

  /** `${userId}:${tempId}`. */
  function Key(userId: string, tempId: Option<string>): string {
    userId + ":" + TempIdText(tempId)
  }

  /**
   * `remoteStrokeBegin` as written: the entry is the meta spread with the
   * start point as its only point, and so has no `userId`.
   */
  function RemoteStrokeBeginAsWritten(v: View, userId: string, tempId: Option<string>, meta: Meta): (r: View)
    ensures Key(userId, tempId) in r.remoteActive
    ensures r.remoteActive[Key(userId, tempId)].userId.None?
    ensures r.remoteActive[Key(userId, tempId)].points == [meta.start]
    ensures r.remoteActive[Key(userId, tempId)].meta == meta
    ensures r.remoteActive.Keys == v.remoteActive.Keys + {Key(userId, tempId)}
    ensures forall k | k in v.remoteActive && k != Key(userId, tempId) :: r.remoteActive[k] == v.remoteActive[k]
    ensures r == v.(remoteActive := r.remoteActive)
  {
    v.(remoteActive := v.remoteActive[Key(userId, tempId) := TempStroke(None, meta, [meta.start])])
  }

  /** `remoteStrokeBegin` with the entry tagged by its owner, which the commit cleanup relies on. */
  function RemoteStrokeBegin(v: View, userId: string, tempId: Option<string>, meta: Meta): (r: View)
    ensures Key(userId, tempId) in r.remoteActive
    ensures r.remoteActive[Key(userId, tempId)].userId == Some(userId)
    ensures r.remoteActive[Key(userId, tempId)].points == [meta.start]
    ensures forall k | k in v.remoteActive && k != Key(userId, tempId) ::
      k in r.remoteActive && r.remoteActive[k] == v.remoteActive[k]
    ensures r == v.(remoteActive := r.remoteActive)
  {
    v.(remoteActive := v.remoteActive[Key(userId, tempId) := TempStroke(Some(userId), meta, [meta.start])])
  }

  /** `remoteStrokePoint`: an unknown stroke is ignored; a known one gains the point and is repainted on the overlay. */
  function RemoteStrokePoint(v: View, userId: string, tempId: Option<string>, p: Coords): (r: View)
    ensures Key(userId, tempId) !in v.remoteActive ==> r == v
    ensures Key(userId, tempId) in v.remoteActive ==>
      var k := Key(userId, tempId);
      var s := v.remoteActive[k];
      && r.remoteActive == v.remoteActive[k := s.(points := s.points + [p])]
      && r.overlay == v.overlay + [Render(TempStrokeOf(s.(points := s.points + [p])))]
      && r == v.(remoteActive := r.remoteActive, overlay := r.overlay)
  {
    var k := Key(userId, tempId);
    if k !in v.remoteActive then v
    else
      var s := v.remoteActive[k];
      var grown := s.(points := s.points + [p]);
      DrawStroke(v.(remoteActive := v.remoteActive[k := grown]), OverlayLayer, TempStrokeOf(grown), false)
  }

  /** Relayed points of one remote stroke, handled in order. */
  function RemotePoints(v: View, userId: string, tempId: Option<string>, ps: seq<Coords>): View
    decreases |ps|
  {
    if |ps| == 0 then v else RemotePoints(RemoteStrokePoint(v, userId, tempId, ps[0]), userId, tempId, ps[1..])
  }

  /**
   * A begun remote stroke collects every relayed point in order; the other
   * in-flight strokes are untouched.
   */
  lemma {:induction false} RemoteStrokeCollectsPoints(v: View, userId: string, tempId: Option<string>, ps: seq<Coords>)
    requires Key(userId, tempId) in v.remoteActive
    ensures
      var k := Key(userId, tempId);
      var r := RemotePoints(v, userId, tempId, ps);
      && k in r.remoteActive
      && r.remoteActive[k].points == v.remoteActive[k].points + ps
      && r.remoteActive[k].meta == v.remoteActive[k].meta
      && r.remoteActive.Keys == v.remoteActive.Keys
      && (forall k' | k' in v.remoteActive && k' != k :: r.remoteActive[k'] == v.remoteActive[k'])
      && r.ops == v.ops && r.buffer == v.buffer
    decreases |ps|
  {
    if |ps| > 0 {
      var v1 := RemoteStrokePoint(v, userId, tempId, ps[0]);
      RemoteStrokeCollectsPoints(v1, userId, tempId, ps[1..]);
      assert v.remoteActive[Key(userId, tempId)].points + ps
          == v1.remoteActive[Key(userId, tempId)].points + ps[1..];
    }
  }

  /** Begin then points: the in-flight stroke is the start followed by every relayed point. */
  lemma RemoteStrokeFromBegin(v: View, userId: string, tempId: Option<string>, meta: Meta, ps: seq<Coords>)
    ensures
      var r := RemotePoints(RemoteStrokeBeginAsWritten(v, userId, tempId, meta), userId, tempId, ps);
      && Key(userId, tempId) in r.remoteActive
      && r.remoteActive[Key(userId, tempId)].points == [meta.start] + ps
  {
    RemoteStrokeCollectsPoints(RemoteStrokeBeginAsWritten(v, userId, tempId, meta), userId, tempId, ps);
  }

  /**
   * `remoteStrokeCommit`: drops the in-flight strokes whose owner is the
   * op's user, appends the op without checking for duplicates, paints it
   * on the buffer and flushes.
   */
  function RemoteStrokeCommit(v: View, op: Op): (r: View)
    ensures r.ops == v.ops + [op]
    ensures r.buffer == v.buffer + Ink(op)
    ensures Consistent(v) ==> Consistent(r)
    ensures forall k | k in r.remoteActive :: r.remoteActive[k].userId != Some(op.userId)
    ensures forall k | k in v.remoteActive && v.remoteActive[k].userId != Some(op.userId) ::
      k in r.remoteActive && r.remoteActive[k] == v.remoteActive[k]
    ensures r.remoteActive.Keys <= v.remoteActive.Keys
    ensures r.down == v.down && r.localPoints == v.localPoints && r.tempId == v.tempId
  {
    var kept := map k | k in v.remoteActive && v.remoteActive[k].userId != Some(op.userId) :: v.remoteActive[k];
    PaintedAppend(v.ops, [op]);
    assert Painted([op]) == Ink(op) by {
      assert [op][1..] == [];
    }
    Flush(DrawStroke(v.(remoteActive := kept, ops := v.ops + [op]), BufferLayer, OpStroke(op), true))
  }

  /** Commit then revoke of a new id gives the ops and the buffer back. */
  lemma CommitThenRevoke(v: View, op: Op)
    requires Consistent(v)
    requires forall i | 0 <= i < |v.ops| :: v.ops[i].id != op.id
    ensures RevokeOp(RemoteStrokeCommit(v, op), op.id).ops == v.ops
    ensures RevokeOp(RemoteStrokeCommit(v, op), op.id).buffer == v.buffer
  {
    var v1 := RemoteStrokeCommit(v, op);
    assert FindIndex(v1.ops, op.id) == Some(|v.ops|) by {
      assert v1.ops[|v.ops|].id == op.id;
    }
    assert v1.ops[..|v.ops|] + v1.ops[|v.ops| + 1..] == v.ops;
  }

  /** As written, a commit never drops the stroke its own user began: the entry stays behind. */
  lemma CommitKeepsStaleEntry(v: View, tempId: Option<string>, meta: Meta, op: Op)
    ensures
      var v1 := RemoteStrokeBeginAsWritten(v, op.userId, tempId, meta);
      Key(op.userId, tempId) in RemoteStrokeCommit(v1, op).remoteActive
  {
    var v1 := RemoteStrokeBeginAsWritten(v, op.userId, tempId, meta);
    assert v1.remoteActive[Key(op.userId, tempId)].userId == None;
  }

  /** With the owner recorded, a commit drops the stroke its user began, as intended. */
  lemma CommitDropsOwnEntry(v: View, tempId: Option<string>, meta: Meta, op: Op)
    ensures
      var v1 := RemoteStrokeBegin(v, op.userId, tempId, meta);
      Key(op.userId, tempId) !in RemoteStrokeCommit(v1, op).remoteActive
  {
  }

  // ---- Local pointer gesture ----

  /** The local stroke as it stands. */
  function LocalStroke(v: View): Stroke {
    Stroke(v.opts.tool, v.opts.color, v.opts.size, v.localPoints)
  }

  /**
   * Pointer down: starts a gesture (even if one is in progress) with a new
   * temp id and the start point, and announces it with the current options.
   */
  function PointerDown(v: View, start: Point, tempId: string): (r: (View, Event))
    ensures r.0.down && r.0.tempId == Some(tempId) && r.0.localPoints == [AsCoords(start)]
    ensures r.1 == StrokeBegin(BeginMsg(Some(tempId), Some(v.opts.tool), Some(v.opts.color),
                                        Some(Finite(v.opts.size)), Some(AsCoords(start))))
    ensures r.0 == v.(down := true, tempId := Some(tempId), localPoints := [AsCoords(start)])
  {
    var s := AsCoords(start);
    (v.(down := true, tempId := Some(tempId), localPoints := [s]),
     StrokeBegin(BeginMsg(Some(tempId), Some(v.opts.tool), Some(v.opts.color), Some(Finite(v.opts.size)), Some(s))))
  }

  // ---- Pointer positions ----

  /**
   * The canvas's box on the page, as the bounding rectangle reports it, in
   * CSS pixels. Two boxes matter: the live one a move reads, and the one
   * cached at the last resize, which the pointer-down position reads. They
   * differ after a layout change (the sidebar toggling) until the next
   * resize.
   */
  datatype Box = Box(left: real, top: real, width: real, height: real)

  /** `onPointerMove`'s position: the pointer's offset from the live box's corner, in CSS pixels. */
  function MovePosition(client: Point, live: Box): (r: Point)
    ensures r.x + live.left == client.x && r.y + live.top == client.y
  {
    Point(client.x - live.left, client.y - live.top)
  }

  /**
   * The drawing transform the resize installs: a point in drawing
   * coordinates lands on the backing-store pixel `dpr` times as far out.
   */
  function ToDevice(p: Point, dpr: real): Point {
    Point(p.x * dpr, p.y * dpr)
  }

  /** The backing-store pixel under the pointer: the backing store is `dpr` times the live box. */
  function PixelUnderPointer(client: Point, live: Box, dpr: real): Point {
    Point((client.x - live.left) * dpr, (client.y - live.top) * dpr)
  }

  /**
   * `_eventPoint` as written, after a resize has made the backing store
   * `dpr` times the box: the offset from the cached box is scaled by
   * backing-store width over box width, which is `dpr`, although the
   * drawing transform scales again.
   */
  function DownPositionAsWritten(client: Point, cached: Box, dpr: real): (r: Point)
    ensures r == ToDevice(MovePosition(client, cached), dpr)
  {
    Point((client.x - cached.left) * dpr, (client.y - cached.top) * dpr)
  }

  /** The start of a gesture in the coordinates every other point of it uses, read from the live box. */
  function DownPosition(client: Point, live: Box): (r: Point)
    ensures r == MovePosition(client, live)
  {
    Point(client.x - live.left, client.y - live.top)
  }

  lemma ScaledTwice(a: real, dpr: real)
    requires dpr > 0.0
    ensures a * dpr * dpr == a * dpr <==> a == 0.0 || dpr == 1.0
  {
    assert a * dpr * dpr - a * dpr == (a * dpr) * (dpr - 1.0);
    if a * dpr * dpr == a * dpr && a != 0.0 {
      assert a * dpr != 0.0;
    }
  }

  /**
   * As written, the start point is painted where the pointer is only when
   * the cached box is current and the pixel ratio is 1, or the pointer is
   * at the box's corner; at ratio 1 it is painted there exactly when the
   * cached box has the live box's corner.
   */
  lemma DownPositionAsWrittenMisses(client: Point, cached: Box, live: Box, dpr: real)
    requires dpr > 0.0
    ensures cached == live ==>
      (ToDevice(DownPositionAsWritten(client, cached, dpr), dpr) == PixelUnderPointer(client, live, dpr)
       <==> dpr == 1.0 || (client.x == live.left && client.y == live.top))
    ensures dpr == 1.0 ==>
      (ToDevice(DownPositionAsWritten(client, cached, dpr), dpr) == PixelUnderPointer(client, live, dpr)
       <==> cached.left == live.left && cached.top == live.top)
  {
    if cached == live {
      var dx, dy := client.x - live.left, client.y - live.top;
      ScaledTwice(dx, dpr);
      ScaledTwice(dy, dpr);
      assert ToDevice(DownPositionAsWritten(client, cached, dpr), dpr) == Point(dx * dpr * dpr, dy * dpr * dpr);
      assert PixelUnderPointer(client, live, dpr) == Point(dx * dpr, dy * dpr);
    }
  }

  /**
   * As written, the start point agrees with the point a move at the same
   * spot adds only when the cached box has the live box's corner and,
   * beyond that, the pixel ratio is 1 or the pointer is at the corner.
   */
  lemma DownPositionAsWrittenOffMove(client: Point, cached: Box, live: Box, dpr: real)
    requires dpr > 0.0
    ensures cached == live ==>
      (DownPositionAsWritten(client, cached, dpr) == MovePosition(client, live)
       <==> dpr == 1.0 || (client.x == live.left && client.y == live.top))
    ensures dpr == 1.0 ==>
      (DownPositionAsWritten(client, cached, dpr) == MovePosition(client, live)
       <==> cached.left == live.left && cached.top == live.top)
  {
    var dx, dy := client.x - cached.left, client.y - cached.top;
    assert DownPositionAsWritten(client, cached, dpr) == Point(dx * dpr, dy * dpr);
    if cached == live && dpr != 1.0 {
      assert MovePosition(client, live) == Point(dx, dy);
      if dx != 0.0 {
        assert dx * dpr - dx == dx * (dpr - 1.0) != 0.0;
      }
      if dy != 0.0 {
        assert dy * dpr - dy == dy * (dpr - 1.0) != 0.0;
      }
    }
  }

  /** On a screen with pixel ratio 2, a press 10 pixels into the box starts the stroke 20 pixels in. */
  lemma DownPositionAsWrittenOnDenseScreen()
    ensures DownPositionAsWritten(Point(10.0, 10.0), Box(0.0, 0.0, 100.0, 100.0), 2.0) == Point(20.0, 20.0)
    ensures MovePosition(Point(10.0, 10.0), Box(0.0, 0.0, 100.0, 100.0)) == Point(10.0, 10.0)
  {
  }

  /**
   * At pixel ratio 1, with the sidebar just collapsed so the box moved from
   * 240 to 60 pixels from the left and no resize yet, a press at 300 starts
   * the stroke 60 pixels in while a move there adds its point 240 pixels in.
   */
  lemma DownPositionAsWrittenOnStaleBox()
    ensures DownPositionAsWritten(Point(300.0, 100.0), Box(240.0, 0.0, 800.0, 600.0), 1.0) == Point(60.0, 100.0)
    ensures MovePosition(Point(300.0, 100.0), Box(60.0, 0.0, 980.0, 600.0)) == Point(240.0, 100.0)
  {
  }

  /**
   * The corrected start point, like every move, lands on the buffer pixel
   * under the pointer whatever the pixel ratio.
   */
  lemma DownPositionUnderPointer(client: Point, live: Box, dpr: real)
    ensures ToDevice(DownPosition(client, live), dpr) == PixelUnderPointer(client, live, dpr)
    ensures ToDevice(MovePosition(client, live), dpr) == PixelUnderPointer(client, live, dpr)
  {
  }

  /**
   * Pointer down at a position on the page, as written: the start point
   * is `_eventPoint`'s, read from the cached box and scaled by the pixel
   * ratio. `live` is the box a move at the same spot would read; the start
   * agrees with that move's point only as `DownPositionAsWrittenOffMove`
   * says.
   */
  function PointerDownAt(v: View, client: Point, cached: Box, live: Box, dpr: real, tempId: string): (r: (View, Event))
    requires dpr > 0.0
    ensures r.0.localPoints == [AsCoords(DownPositionAsWritten(client, cached, dpr))]
    ensures r.1.StrokeBegin? && r.1.begin.start == Some(AsCoords(DownPositionAsWritten(client, cached, dpr)))
    ensures cached == live ==>
      (r.0.localPoints == [AsCoords(MovePosition(client, live))]
       <==> dpr == 1.0 || (client.x == live.left && client.y == live.top))
    ensures dpr == 1.0 ==>
      (r.0.localPoints == [AsCoords(MovePosition(client, live))]
       <==> cached.left == live.left && cached.top == live.top)
  {
    var d := DownPositionAsWritten(client, cached, dpr);
    DownPositionAsWrittenOffMove(client, cached, live, dpr);
    assert AsCoords(d) == AsCoords(MovePosition(client, live)) ==> d == MovePosition(client, live) by {
      if AsCoords(d) == AsCoords(MovePosition(client, live)) {
        assert AsCoords(d)[0] == d.x && AsCoords(d)[1] == d.y;
      }
    }
    PointerDown(v, d, tempId)
  }

  /**
   * Pointer down with the corrected start, read from the live box like a
   * move: the gesture starts where a move at the same spot would add its
   * point.
   */
  function PointerDownAtCorrected(v: View, client: Point, live: Box, tempId: string): (r: (View, Event))
    ensures r.0.localPoints == [AsCoords(MovePosition(client, live))]
    ensures r.1.StrokeBegin? && r.1.begin.start == Some(AsCoords(MovePosition(client, live)))
  {
    PointerDown(v, DownPosition(client, live), tempId)
  }

  /**
   * Pointer move: the pending cursor is overwritten; during a gesture the
   * point is kept, the overlay shows only the local stroke, and the point
   * is sent under the gesture's temp id.
   */
  function PointerMove(v: View, at: Point): (r: (View, seq<Event>))
    ensures r.0.cursorPending == Some(CursorPos(at.x, at.y, v.opts.tool, v.opts.color))
    ensures !v.down ==> r == (v.(cursorPending := r.0.cursorPending), [])
    ensures v.down ==>
      && r.0.localPoints == v.localPoints + [AsCoords(at)]
      && r.0.overlay == [Render(LocalStroke(r.0))]
      && r.1 == [StrokePoint(PointMsg(v.tempId, Some(AsCoords(at))))]
      && r.0 == v.(cursorPending := r.0.cursorPending, localPoints := r.0.localPoints, overlay := r.0.overlay)
  {
    var v1 := v.(cursorPending := Some(CursorPos(at.x, at.y, v.opts.tool, v.opts.color)));
    if !v1.down then (v1, [])
    else
      var p := AsCoords(at);
      var v2 := v1.(localPoints := v1.localPoints + [p]);
      (DrawStroke(v2.(overlay := []), OverlayLayer, LocalStroke(v2), false),
       [StrokePoint(PointMsg(v2.tempId, Some(p)))])
  }

  /**
   * Pointer up or cancel: outside a gesture nothing happens; otherwise the
   * local stroke is painted on the buffer (but not added to the ops), the
   * full point list is sent, and the gesture ends.
   */
  function PointerUp(v: View): (r: (View, seq<Event>))
    ensures !v.down ==> r == (v, [])
    ensures v.down ==>
      && !r.0.down && r.0.tempId == None && r.0.localPoints == []
      && r.0.ops == v.ops && r.0.remoteActive == v.remoteActive
      && r.0.buffer == v.buffer + (if v.localPoints == [] then [] else [Render(LocalStroke(v))])
      && r.1 == [StrokeEnd(EndMsg(v.tempId, Some(v.opts.tool), Some(v.opts.color),
                                  Some(Finite(v.opts.size)), Some(v.localPoints)))]
  {
    if !v.down then (v, [])
    else
      var drawn := Flush(DrawStroke(v.(down := false), BufferLayer, LocalStroke(v), true));
      (drawn.(tempId := None, localPoints := []),
       [StrokeEnd(EndMsg(v.tempId, Some(v.opts.tool), Some(v.opts.color), Some(Finite(v.opts.size)), Some(v.localPoints)))])
  }

  /** After a gesture the buffer holds the committed ops plus the optimistic stroke, which the ops do not. */
  lemma OptimisticStrokeOutsideOps(v: View)
    requires Consistent(v) && v.down && v.localPoints != []
    ensures PointerUp(v).0.buffer == Painted(PointerUp(v).0.ops) + [Render(LocalStroke(v))]
    ensures !Consistent(PointerUp(v).0)
  {
    var r := PointerUp(v).0;
    assert |r.buffer| == |Painted(r.ops)| + 1;
  }

  /**
   * One display frame: a pending cursor is sent (once) and cleared, and
   * the visible canvas is refreshed.
   */
  function Frame(v: View): (r: (View, seq<Event>))
    ensures r.0.cursorPending == None
    ensures r.0.visible == v.buffer + v.overlay
    ensures v.cursorPending.None? ==> r.1 == []
    ensures v.cursorPending.Some? ==>
      var c := v.cursorPending.value;
      r.1 == [CursorMove(Some(CursorPayload(Some(Finite(c.x)), Some(Finite(c.y)), Some(c.tool), Some(c.color))))]
    ensures r.0 == v.(cursorPending := None, visible := r.0.visible)
  {
    match v.cursorPending
    case None => (Flush(v), [])
    case Some(c) =>
      (Flush(v.(cursorPending := None)),
       [CursorMove(Some(CursorPayload(Some(Finite(c.x)), Some(Finite(c.y)), Some(c.tool), Some(c.color))))])
  }

  /** A run of pointer moves, collecting what they send. */
  function Moves(v: View, path: seq<Point>): (r: (View, seq<Event>))
    decreases |path|
  {
    if |path| == 0 then (v, [])
    else
      var (v1, out1) := PointerMove(v, path[0]);
      var (v2, out2) := Moves(v1, path[1..]);
      (v2, out1 + out2)
  }

  function PointsOf(path: seq<Point>): (r: seq<Coords>)
    ensures |r| == |path|
    ensures forall i | 0 <= i < |path| :: r[i] == AsCoords(path[i])
  {
    seq(|path|, i requires 0 <= i < |path| => AsCoords(path[i]))
  }

  /** The `stroke:point` events of a gesture's moves, one per point. */
  function PointEvents(tempId: Option<string>, path: seq<Point>): (r: seq<Event>)
    ensures |r| == |path|
    ensures forall i | 0 <= i < |path| :: r[i] == StrokePoint(PointMsg(tempId, Some(AsCoords(path[i]))))
  {
    seq(|path|, i requires 0 <= i < |path| => StrokePoint(PointMsg(tempId, Some(AsCoords(path[i])))))
  }

  /**
   * Points are never coalesced: during a gesture every move is kept and
   * sent, and the pending cursor is the last move.
   */
  lemma {:induction false} MovesKeepEveryPoint(v: View, path: seq<Point>)
    requires v.down
    ensures Moves(v, path).0.localPoints == v.localPoints + PointsOf(path)
    ensures Moves(v, path).1 == PointEvents(v.tempId, path)
    ensures Moves(v, path).0 == v.(localPoints := Moves(v, path).0.localPoints,
                                   overlay := Moves(v, path).0.overlay,
                                   cursorPending := Moves(v, path).0.cursorPending)
    ensures |path| > 0 ==>
      Moves(v, path).0.cursorPending == Some(CursorPos(path[|path| - 1].x, path[|path| - 1].y, v.opts.tool, v.opts.color))
    decreases |path|
  {
    if |path| > 0 {
      var (v1, out1) := PointerMove(v, path[0]);
      MovesKeepEveryPoint(v1, path[1..]);
      var (v2, out2) := Moves(v1, path[1..]);
      assert PointsOf(path) == [AsCoords(path[0])] + PointsOf(path[1..]);
      assert out1 + out2 == PointEvents(v.tempId, path);
      if |path| > 1 {
        assert path[1..][|path[1..]| - 1] == path[|path| - 1];
      }
    }
  }

  /** Outside a gesture, moves send nothing and only the last one is pending for the next frame. */
  lemma {:induction false} MovesCoalesceCursor(v: View, path: seq<Point>)
    requires !v.down
    requires |path| > 0
    ensures Moves(v, path).1 == []
    ensures Frame(Moves(v, path).0).1 ==
      [CursorMove(Some(CursorPayload(Some(Finite(path[|path| - 1].x)), Some(Finite(path[|path| - 1].y)),
                                     Some(v.opts.tool), Some(v.opts.color))))]
    decreases |path|
  {
    var (v1, out1) := PointerMove(v, path[0]);
    if |path| > 1 {
      MovesCoalesceCursor(v1, path[1..]);
      assert path[1..][|path[1..]| - 1] == path[|path| - 1];
    }
  }
}

=== FILE: decimal.dfy ===
/**
 * Decimal text of natural numbers, as JavaScript prints them in template
 * strings and in string concatenation (`'User-' + n`, `${this.seq}`).
 */
module Decimal {

  predicate IsDigit(c: char) {
    '0' <= c <= '9'
  }

  predicate AllDigits(s: string) {
    forall i | 0 <= i < |s| :: IsDigit(s[i])
  }

  function DigitChar(d: nat): (c: char)
    requires d < 10
    ensures IsDigit(c)
  {
    ['0', '1', '2', '3', '4', '5', '6', '7', '8', '9'][d]
  }

  function DigitValue(c: char): (d: nat)
    requires IsDigit(c)
    ensures d < 10
  {
    (c as int - '0' as int) as nat
  }

  lemma DigitCharValue(d: nat)
    requires d < 10
    ensures DigitValue(DigitChar(d)) == d
  {
  }

  /** The decimal numeral of `n`, without leading zeros. */
  function Digits(n: nat): (s: string)
    ensures 1 <= |s|
    ensures AllDigits(s)
    ensures |s| > 1 ==> s[0] != '0'
    decreases n
  {
    if n < 10 then [DigitChar(n)] else Digits(n / 10) + [DigitChar(n % 10)]
  }

  /** The value of a numeral; the inverse of `Digits`. */
  function Value(s: string): nat
    requires AllDigits(s)
    decreases |s|
  {
    if |s| == 0 then 0 else Value(s[..|s| - 1]) * 10 + DigitValue(s[|s| - 1])
  }

  /** Reading back the numeral of `n` gives `n`. */
  lemma {:induction false} ValueOfDigits(n: nat)
    ensures Value(Digits(n)) == n
    decreases n
  {
    var s := Digits(n);
    if n < 10 {
      DigitCharValue(n);
    } else {
      ValueOfDigits(n / 10);
      DigitCharValue(n % 10);
      assert s[..|s| - 1] == Digits(n / 10);
    }
  }

  /** Different numbers print differently. */
  lemma DigitsInjective(m: nat, n: nat)
    requires Digits(m) == Digits(n)
    ensures m == n
  {
    ValueOfDigits(m);
    ValueOfDigits(n);
  }
}

=== FILE: dispatch.dfy ===
/**
 * The client's message dispatcher and toolbar buttons: how each server
 * message reaches the canvas view, and what the size, undo, redo and
 * clear buttons do.
 */
module Dispatch {
  import opened Js
  import opened Protocol
  import opened Canvas

  /**
   * The client page: the canvas view, the value of the size slider, and
   * the op count shown in the status bar.
   */
  datatype App = App(view: View, sizeInput: real, shownCount: nat)

  /** The handler table: what one received message does to the page. */
  function OnMessage(app: App, msg: ServerMsg): (r: App)
    ensures msg.Init? ==> r.view.ops == [] && r.shownCount == 0 && r.view.self == Some(msg.self)
    ensures msg.Commit? ==> r.view.ops == app.view.ops + [msg.op]
    ensures msg.Reapply? ==> r.view.ops == app.view.ops + [msg.op]
    ensures msg.Revoke? ==> r.view == RevokeOp(app.view, msg.id)
    ensures msg.Commit? || msg.Reapply? || msg.Revoke? ==> r.shownCount == |r.view.ops|
    ensures !(msg.Init? || msg.Commit? || msg.Reapply? || msg.Revoke?) ==> r.view.ops == app.view.ops
    ensures msg.BeginRelay? ==>
      && Key(msg.userId, msg.tempId) in r.view.remoteActive
      && r.view.remoteActive[Key(msg.userId, msg.tempId)].userId.None?
    ensures r.sizeInput == app.sizeInput
  {
    match msg
    case Init(self, users, ops) =>
      // the received op list is ignored: the view always starts empty
      app.(view := ApplyFullOps(app.view.(self := Some(self)), []), shownCount := 0)
    case UserJoin(_) => app
    case UserLeave(_) => app
    case CursorRelay(_, _, _, _, _) => app
    case BeginRelay(userId, tempId, meta) => app.(view := RemoteStrokeBeginAsWritten(app.view, userId, tempId, meta))
    case PointRelay(userId, tempId, p, _) => app.(view := RemoteStrokePoint(app.view, userId, tempId, p))
    case Commit(_, _, _, op) =>
      var view := RemoteStrokeCommit(app.view, op);
      app.(view := view, shownCount := OpCount(view))
    case Revoke(id) =>
      var view := RevokeOp(app.view, id);
      app.(view := view, shownCount := OpCount(view))
    case Reapply(op) =>
      var view := RemoteStrokeCommit(app.view, op);
      app.(view := view, shownCount := OpCount(view))
  }

  /**
   * The page keeps a remote stroke in flight after its own commit: the
   * begun entry carries no owner, so the commit's cleanup passes it over.
   */
  lemma {:induction false} PageKeepsStaleEntry(app: App, u: string, t: Option<string>, meta: Meta, op: Op)
    requires op.userId == u
    ensures Key(u, t) in OnMessages(app, [BeginRelay(u, t, meta), Commit(u, op.id, t, op)]).view.remoteActive
  {
    var a1 := OnMessage(app, BeginRelay(u, t, meta));
    var a2 := OnMessage(a1, Commit(u, op.id, t, op));
    assert a1.view.remoteActive[Key(u, t)].userId != Some(op.userId);
    assert [BeginRelay(u, t, meta), Commit(u, op.id, t, op)][1..] == [Commit(u, op.id, t, op)];
    assert OnMessages(a1, [Commit(u, op.id, t, op)]) == OnMessages(a2, []);
  }

  /** Messages received in order. */
  function OnMessages(app: App, msgs: seq<ServerMsg>): App
    decreases |msgs|
  {
    if |msgs| == 0 then app else OnMessages(OnMessage(app, msgs[0]), msgs[1..])
  }

  /** The size buttons: one smaller but at least 1; one larger but at most 50. */
  function SizeDown(size: real): (r: real)
    ensures r >= 1.0
    ensures r <= size || size < 1.0
    ensures size >= 2.0 ==> r == size - 1.0
    ensures size < 2.0 ==> r == 1.0
  {
    if size - 1.0 >= 1.0 then size - 1.0 else 1.0
  }

  function SizeUp(size: real): (r: real)
    ensures r <= 50.0
    ensures r >= size || size > 50.0
    ensures size <= 49.0 ==> r == size + 1.0
    ensures size > 49.0 ==> r == 50.0
  {
    if size + 1.0 <= 50.0 then size + 1.0 else 50.0
  }

  /** Inside the range the two buttons undo each other. */
  lemma SizeStepsInverse(size: real)
    requires 1.0 <= size <= 50.0
    ensures size <= 49.0 ==> SizeDown(SizeUp(size)) == size
    ensures size >= 2.0 ==> SizeUp(SizeDown(size)) == size
    ensures size == 50.0 ==> SizeDown(SizeUp(size)) == 49.0
    ensures size == 1.0 ==> SizeUp(SizeDown(size)) == 2.0
  {
  }

  datatype Button = SizeDecrease | SizeIncrease | UndoButton | RedoButton | ClearButton

  /**
   * A button press: the size buttons move the slider and the pen size;
   * undo and redo ask the server; clear only wipes the local canvas and
   * tells nobody.
   */
  function Press(app: App, b: Button): (r: (App, seq<Event>))
    ensures b == UndoButton ==> r == (app, [UndoRequest])
    ensures b == RedoButton ==> r == (app, [RedoRequest])
    ensures b == ClearButton ==> r.1 == [] && r.0.view == ClearLocal(app.view) && r.0.view.ops == []
    ensures b == SizeDecrease ==>
      r.1 == [] && r.0.sizeInput == SizeDown(app.sizeInput) && r.0.view.opts.size == r.0.sizeInput
    ensures b == SizeIncrease ==>
      r.1 == [] && r.0.sizeInput == SizeUp(app.sizeInput) && r.0.view.opts.size == r.0.sizeInput
    ensures b == SizeDecrease || b == SizeIncrease ==> r.0.view.ops == app.view.ops
  {
    match b
    case SizeDecrease =>
      var size := SizeDown(app.sizeInput);
      (app.(sizeInput := size, view := app.view.(opts := app.view.opts.(size := size))), [])
    case SizeIncrease =>
      var size := SizeUp(app.sizeInput);
      (app.(sizeInput := size, view := app.view.(opts := app.view.opts.(size := size))), [])
    case UndoButton => (app, [UndoRequest])
    case RedoButton => (app, [RedoRequest])
    case ClearButton => (app.(view := ClearLocal(app.view)), [])
  }
}

=== FILE: drawing_state.dfy ===
/**
 * The room's operation log: committed operations, the redo stack, the
 * connected users and their cursors, and the sequence counter that makes
 * operation ids unique between resets.
 */
module DrawingState {
  import opened Js
  import opened Protocol
  import opened OpIds
  import OrderedMap

  /** Connected users keyed by socket id, in join order. */
  type Users = seq<OrderedMap.Entry<string, User>>

  /**
   * `ops` is the log, oldest first; `undone` is the redo stack, whose top
   * is its LAST element; `nextSeq` is the sequence number of the next op.
   */
  datatype State = State(
    users: Users,
    ops: seq<Op>,
    undone: seq<Op>,
    cursors: map<string, Cursor>,
    nextSeq: nat)

  /**
   * What a handler reads from its environment: `Date.now()` when it starts
   * (`now`) and once more when it stamps an op (`later`), and one fresh
   * random token (`nonce`).
   */
  datatype Env = Env(now: nat, later: nat, nonce: string)

  function Initial(): (st: State)
    ensures st.ops == [] && st.undone == [] && st.nextSeq == 0
    ensures st.users == [] && st.cursors == map[]
  {
    State([], [], [], map[], 0)
  }

  // ---- Normalisation of stroke fields (shared by `stroke:begin` and `stroke:end`) ----

  /** The tool is the eraser exactly when the client asked for `'eraser'`; anything else is a brush. */
  function NormalizeTool(tool: Option<string>): (r: string)
    ensures r == "eraser" || r == "brush"
    ensures r == "eraser" <==> tool == Some("eraser")
  {
    if tool == Some("eraser") then "eraser" else "brush"
  }

  /** A missing or empty colour falls back to the user's palette colour. */
  function NormalizeColor(color: Option<string>, userColor: string): (r: string)
    ensures TruthyString(color) ==> r == color.value
    ensures !TruthyString(color) ==> r == userColor
  {
    OrString(color, userColor)
  }

  /** `Math.max(1, Math.min(100, size || 4))`. */
  function NormalizeSize(size: Option<JsNumber>): (r: real)
    ensures 1.0 <= r <= 100.0
    ensures !TruthyNumber(size) ==> r == 4.0
    ensures size.Some? && size.value.Finite? && 1.0 <= size.value.v <= 100.0 ==> r == size.value.v
    ensures size == Some(PosInf) || (size.Some? && size.value.Finite? && size.value.v > 100.0) ==> r == 100.0
    ensures size == Some(NegInf) || (size.Some? && size.value.Finite? && size.value.v < 1.0 && size.value.v != 0.0)
            ==> r == 1.0
  {
    var given := if TruthyNumber(size) then size.value else Finite(4.0);
    JsMax(Finite(1.0), JsMin(Finite(100.0), given)).v
  }

  /** The point list of an end-of-stroke message: the array sent, or empty when it is not an array. */
  function NormalizePoints(points: Option<seq<Coords>>): (r: seq<Coords>)
    ensures points.Some? ==> r == points.value
    ensures points.None? ==> r == []
  {
    if points.Some? then points.value else []
  }

  // ---- Operations ----

  /**
   * `createOperation`: builds the op for an end-of-stroke message, stamps it
   * with an id embedding the current sequence number, and appends it.
   */
  function CreateOperation(st: State, user: User, msg: EndMsg, env: Env): (r: (State, Op))
    ensures r.0.ops == st.ops + [r.1]
    ensures r.0.undone == st.undone && r.0.users == st.users && r.0.cursors == st.cursors
    ensures r.0.nextSeq == st.nextSeq + 1
    ensures SeqOf(r.1.id) == Some(st.nextSeq)
    ensures r.1.userId == user.id && r.1.committedAt == env.later
    ensures r.1.tool == NormalizeTool(msg.tool)
    ensures r.1.color == NormalizeColor(msg.color, user.color)
    ensures r.1.size == NormalizeSize(msg.size)
    ensures r.1.points == NormalizePoints(msg.points)
  {
    var id := FormatId(env.now, st.nextSeq, env.nonce);
    SeqOfFormatId(env.now, st.nextSeq, env.nonce);
    var op := Op(id, user.id, NormalizeTool(msg.tool), NormalizeColor(msg.color, user.color),
                 NormalizeSize(msg.size), NormalizePoints(msg.points), env.later);
    (st.(ops := st.ops + [op], nextSeq := st.nextSeq + 1), op)
  }

  /** `undo`: moves the newest op of the log onto the redo stack; nothing to undo yields `None`. */
  function Undo(st: State): (r: (State, Option<Op>))
    ensures st.ops == [] ==> r == (st, None)
    ensures st.ops != [] ==> r.1.Some? && r.0.ops + [r.1.value] == st.ops
    ensures st.ops != [] ==> r.0.undone == st.undone + [r.1.value]
    ensures r.0.users == st.users && r.0.cursors == st.cursors && r.0.nextSeq == st.nextSeq
  {
    if |st.ops| == 0 then (st, None)
    else
      var op := st.ops[|st.ops| - 1];
      (st.(ops := st.ops[..|st.ops| - 1], undone := st.undone + [op]), Some(op))
  }

  /** `redo`: moves the top of the redo stack back onto the log; nothing to redo yields `None`. */
  function Redo(st: State): (r: (State, Option<Op>))
    ensures st.undone == [] ==> r == (st, None)
    ensures st.undone != [] ==> r.1.Some? && r.0.undone + [r.1.value] == st.undone
    ensures st.undone != [] ==> r.0.ops == st.ops + [r.1.value]
    ensures r.0.users == st.users && r.0.cursors == st.cursors && r.0.nextSeq == st.nextSeq
  {
    if |st.undone| == 0 then (st, None)
    else
      var op := st.undone[|st.undone| - 1];
      (st.(ops := st.ops + [op], undone := st.undone[..|st.undone| - 1]), Some(op))
  }

  /** `reset`: empties the log and the redo stack and restarts the sequence; users and cursors stay. */
  function Reset(st: State): (r: State)
    ensures r.ops == [] && r.undone == [] && r.nextSeq == 0
    ensures r.users == st.users && r.cursors == st.cursors
  {
    st.(ops := [], undone := [], nextSeq := 0)
  }

  // ---- Undo/redo round trips ----

  /** Undo followed by redo gives back the same state and the same op. */
  lemma UndoThenRedo(st: State)
    requires st.ops != []
    ensures Redo(Undo(st).0) == (st, Undo(st).1)
    ensures Undo(st).1 == Some(st.ops[|st.ops| - 1])
  {
    var (mid, op) := Undo(st);
    assert mid.undone[..|mid.undone| - 1] == st.undone;
  }

  /** Redo followed by undo gives back the same state and the same op. */
  lemma RedoThenUndo(st: State)
    requires st.undone != []
    ensures Undo(Redo(st).0) == (st, Redo(st).1)
    ensures Redo(st).1 == Some(st.undone[|st.undone| - 1])
  {
    var (mid, op) := Redo(st);
    assert mid.ops[..|mid.ops| - 1] == st.ops;
  }

  /**
   * A new stroke does not clear the redo stack: after undo, a new stroke and
   * redo, the undone op is back, after the new one.
   */
  lemma StrokeKeepsRedoStack(st: State, user: User, msg: EndMsg, env: Env)
    requires st.ops != []
    ensures
      var (s1, undone) := Undo(st);
      var (s2, added) := CreateOperation(s1, user, msg, env);
      var (s3, redone) := Redo(s2);
      && redone == undone
      && s3.ops == st.ops[..|st.ops| - 1] + [added, st.ops[|st.ops| - 1]]
      && s3.undone == st.undone
  {
    var (s1, undone) := Undo(st);
    var (s2, added) := CreateOperation(s1, user, msg, env);
    assert s2.undone[..|s2.undone| - 1] == st.undone;
    assert s1.ops == st.ops[..|st.ops| - 1];
  }

  // ---- Id uniqueness ----

  function Ids(ops: seq<Op>): (r: seq<string>)
    ensures |r| == |ops|
    ensures forall i | 0 <= i < |ops| :: r[i] == ops[i].id
  {
    seq(|ops|, i requires 0 <= i < |ops| => ops[i].id)
  }

  lemma IdsAppend(a: seq<Op>, b: seq<Op>)
    ensures Ids(a + b) == Ids(a) + Ids(b)
  {
  }

  /** Every element occurs once. */
  ghost predicate NoDup<T>(s: seq<T>) {
    forall x | x in multiset(s) :: multiset(s)[x] == 1
  }

  /**
   * The log invariant: every op in the log or on the redo stack carries an
   * id whose sequence number was already handed out, and no id occurs twice.
   */
  ghost predicate LogInv(st: State) {
    && (forall op | op in st.ops + st.undone :: SeqOf(op.id).Some? && SeqOf(op.id).value < st.nextSeq)
    && NoDup(Ids(st.ops + st.undone))
  }

  lemma InitialLogInv()
    ensures LogInv(Initial())
  {
  }

  lemma NoDupAddOne<T>(s: seq<T>, t: seq<T>, x: T)
    requires NoDup(s) && x !in s
    requires multiset(t) == multiset(s) + multiset{x}
    ensures NoDup(t)
  {
    assert multiset(s)[x] == 0;
  }

  /** An id carrying the next sequence number is not yet in the log or on the redo stack. */
  lemma NextIdIsNew(st: State, id: string)
    requires LogInv(st)
    requires SeqOf(id) == Some(st.nextSeq)
    ensures id !in Ids(st.ops + st.undone)
  {
    var all := st.ops + st.undone;
    forall i | 0 <= i < |all|
      ensures Ids(all)[i] != id
    {
      assert all[i] in all;
    }
  }

  /** Inserting an op between two lists adds exactly its id to the ids. */
  lemma InsertIds(a: seq<Op>, op: Op, b: seq<Op>)
    ensures multiset(Ids(a + [op] + b)) == multiset(Ids(a + b)) + multiset{op.id}
  {
    IdsAppend(a + [op], b);
    IdsAppend(a, [op]);
    IdsAppend(a, b);
  }

  /** Appending an op stamped with the next sequence number keeps the invariant. */
  lemma AppendNextKeepsLogInv(st: State, op: Op)
    requires LogInv(st)
    requires SeqOf(op.id) == Some(st.nextSeq)
    ensures LogInv(st.(ops := st.ops + [op], nextSeq := st.nextSeq + 1))
  {
    var s1 := st.(ops := st.ops + [op], nextSeq := st.nextSeq + 1);
    assert s1.ops + s1.undone == st.ops + [op] + st.undone;
    NextIdIsNew(st, op.id);
    InsertIds(st.ops, op, st.undone);
    NoDupAddOne(Ids(st.ops + st.undone), Ids(s1.ops + s1.undone), op.id);
    forall o | o in s1.ops + s1.undone
      ensures SeqOf(o.id).Some? && SeqOf(o.id).value < s1.nextSeq
    {
      if o != op {
        assert o in st.ops + st.undone;
      }
    }
  }

  lemma CreateOperationKeepsLogInv(st: State, user: User, msg: EndMsg, env: Env)
    requires LogInv(st)
    ensures LogInv(CreateOperation(st, user, msg, env).0)
  {
    var r := CreateOperation(st, user, msg, env);
    assert r.0 == st.(ops := st.ops + [r.1], nextSeq := st.nextSeq + 1);
    AppendNextKeepsLogInv(st, r.1);
  }

  /** A state holding the same ops (log and redo stack together) as a good one, with the same next sequence number, is good. */
  lemma LogInvSameContents(st: State, s1: State)
    requires LogInv(st) && s1.nextSeq == st.nextSeq
    requires multiset(Ids(s1.ops + s1.undone)) == multiset(Ids(st.ops + st.undone))
    requires forall o | o in s1.ops + s1.undone :: o in st.ops + st.undone
    ensures LogInv(s1)
  {
  }

  /** Undo moves the newest op onto the redo stack: the two together hold the same ops. */
  lemma UndoMovesOneOp(st: State)
    requires st.ops != []
    ensures multiset(Ids(Undo(st).0.ops + Undo(st).0.undone)) == multiset(Ids(st.ops + st.undone))
    ensures forall o | o in Undo(st).0.ops + Undo(st).0.undone :: o in st.ops + st.undone
  {
    var (s1, op) := Undo(st);
    var a := s1.ops;
    assert st.ops + st.undone == a + [op.value] + st.undone;
    assert s1.ops + s1.undone == a + st.undone + [op.value];
    IdsAppend(a + [op.value], st.undone);
    IdsAppend(a, [op.value]);
    IdsAppend(a + st.undone, [op.value]);
    IdsAppend(a, st.undone);
  }

  lemma UndoKeepsLogInv(st: State)
    requires LogInv(st)
    ensures LogInv(Undo(st).0)
  {
    if st.ops != [] {
      UndoMovesOneOp(st);
      LogInvSameContents(st, Undo(st).0);
    }
  }

  /** Redo moves the top of the redo stack back onto the log: the two together hold the same ops. */
  lemma RedoMovesOneOp(st: State)
    requires st.undone != []
    ensures multiset(Ids(Redo(st).0.ops + Redo(st).0.undone)) == multiset(Ids(st.ops + st.undone))
    ensures forall o | o in Redo(st).0.ops + Redo(st).0.undone :: o in st.ops + st.undone
  {
    var (s1, op) := Redo(st);
    var u := s1.undone;
    assert st.ops + st.undone == st.ops + u + [op.value];
    assert s1.ops + s1.undone == st.ops + [op.value] + u;
    IdsAppend(st.ops + u, [op.value]);
    IdsAppend(st.ops, u);
    IdsAppend(st.ops + [op.value], u);
    IdsAppend(st.ops, [op.value]);
  }

  lemma RedoKeepsLogInv(st: State)
    requires LogInv(st)
    ensures LogInv(Redo(st).0)
  {
    if st.undone != [] {
      RedoMovesOneOp(st);
      LogInvSameContents(st, Redo(st).0);
    }
  }

  lemma ResetKeepsLogInv(st: State)
    ensures LogInv(Reset(st))
  {
  }

  /** Under the invariant the newest op's id occurs nowhere else in the log. */
  lemma {:induction false} NewestIdIsUnique(st: State)
    requires LogInv(st)
    requires st.ops != []
    ensures st.ops[|st.ops| - 1].id !in Ids(st.ops[..|st.ops| - 1])
  {
    var n := |st.ops|;
    var a := st.ops[..n - 1];
    var x := st.ops[n - 1];
    assert st.ops + st.undone == a + [x] + st.undone;
    IdsAppend(a + [x], st.undone);
    IdsAppend(a, [x]);
    assert multiset(Ids(st.ops + st.undone))[x.id] == multiset(Ids(a))[x.id] + 1 + multiset(Ids(st.undone))[x.id];
  }
}

=== FILE: geometry.dfy ===
/**
 * Canvas geometry: the path a stroke's points are turned into, and the
 * composition mode and style a stroke is painted with. The surfaces of the
 * canvas view record each painted stroke by its points and style; the path
 * drawn for those points is the one defined here, kept as a separate
 * function of the points.
 */
module Geometry {

  datatype Point = Point(x: real, y: real)

  /** Path commands of the 2D canvas API that a stroke uses. */
  datatype PathCmd =
    | MoveTo(p: Point)
    | QuadTo(ctrl: Point, end: Point)
    | LineTo(p: Point)

  /** Where the pen is after a command. */
  function PenAfter(c: PathCmd): Point {
    match c
    case MoveTo(p) => p
    case QuadTo(_, e) => e
    case LineTo(p) => p
  }

  function Mid(a: Point, b: Point): Point {
    Point((a.x + b.x) / 2.0, (a.y + b.y) / 2.0)
  }

  /** Length of the degenerate segment that paints a single point as a round dot. */
  const DotOffset: real := 0.01

  /** The quadratic curves through the interior points, each ending halfway to the next point. */
  function Curves(pts: seq<Point>): (r: seq<PathCmd>)
    requires |pts| >= 2
    ensures |r| == |pts| - 2
  {
    seq(|pts| - 2, k requires 0 <= k < |pts| - 2 => QuadTo(pts[k + 1], Mid(pts[k + 1], pts[k + 2])))
  }

  /**
   * The path of a stroke: nothing for no points, a dot for one point, and
   * otherwise a move to the first point, the curves, and a line to the last.
   */
  function StrokePath(pts: seq<Point>): (r: seq<PathCmd>)
    ensures |pts| == 0 <==> r == []
    ensures |pts| >= 1 ==> r[0] == MoveTo(pts[0]) && r[|r| - 1].LineTo?
    ensures |pts| == 1 ==> r[1] == LineTo(Point(pts[0].x + DotOffset, pts[0].y + DotOffset))
    ensures |pts| >= 2 ==> r[|r| - 1] == LineTo(pts[|pts| - 1])
  {
    if |pts| == 0 then []
    else if |pts| == 1 then [MoveTo(pts[0]), LineTo(Point(pts[0].x + DotOffset, pts[0].y + DotOffset))]
    else [MoveTo(pts[0])] + Curves(pts) + [LineTo(pts[|pts| - 1])]
  }

  /** The path has one command per point (two for a dot), starts at the first point and ends at the last. */
  lemma StrokePathShape(pts: seq<Point>)
    ensures |StrokePath(pts)| == if |pts| == 1 then 2 else |pts|
    ensures |pts| >= 1 ==> StrokePath(pts)[0] == MoveTo(pts[0])
    ensures |pts| >= 2 ==> StrokePath(pts)[|pts| - 1] == LineTo(pts[|pts| - 1])
    ensures |pts| >= 2 ==> forall k | 1 <= k < |pts| - 1 :: StrokePath(pts)[k].QuadTo?
  {
  }

  /**
   * The curves join smoothly: every curve ends on the segment between its
   * control point and the next one, at its midpoint, so consecutive curves
   * share a tangent; the first curve is controlled by the second point and
   * the closing line runs from the midpoint of the last two points.
   */
  lemma {:induction false} StrokePathSmooth(pts: seq<Point>)
    requires |pts| >= 3
    ensures
      var path := StrokePath(pts);
      && path[1].ctrl == pts[1]
      && (forall k | 1 <= k < |pts| - 2 :: path[k].end == Mid(path[k].ctrl, path[k + 1].ctrl))
      && PenAfter(path[|pts| - 2]) == Mid(pts[|pts| - 2], pts[|pts| - 1])
  {
    var path := StrokePath(pts);
    var cs := Curves(pts);
    assert path == [MoveTo(pts[0])] + cs + [LineTo(pts[|pts| - 1])];
    forall k | 1 <= k < |pts| - 2
      ensures path[k].end == Mid(path[k].ctrl, path[k + 1].ctrl)
    {
      assert path[k] == cs[k - 1];
      assert path[k + 1] == cs[k];
    }
    assert path[|pts| - 2] == cs[|pts| - 3];
  }

  /** The loop of the drawing routine, building the same path command by command. */
  method BuildPath(pts: seq<Point>) returns (cmds: seq<PathCmd>)
    ensures cmds == StrokePath(pts)
  {
    if |pts| < 1 {
      return [];
    }
    if |pts| == 1 {
      var p := pts[0];
      return [MoveTo(p), LineTo(Point(p.x + DotOffset, p.y + DotOffset))];
    }
    cmds := [MoveTo(pts[0])];
    var i := 1;
    while i < |pts| - 1
      invariant 1 <= i <= |pts| - 1
      invariant cmds == [MoveTo(pts[0])] + Curves(pts)[..i - 1]
    {
      var c := Mid(pts[i], pts[i + 1]);
      assert Curves(pts)[..i] == Curves(pts)[..i - 1] + [QuadTo(pts[i], c)];
      cmds := cmds + [QuadTo(pts[i], c)];
      i := i + 1;
    }
    assert Curves(pts)[..i - 1] == Curves(pts);
    cmds := cmds + [LineTo(pts[|pts| - 1])];
  }

  /** How a stroke is composited: the eraser cuts through, anything else paints over. */
  datatype Composite = SourceOver | DestinationOut

  function CompositeFor(tool: string): (r: Composite)
    ensures r == DestinationOut <==> tool == "eraser"
  {
    if tool == "eraser" then DestinationOut else SourceOver
  }

  /** `size || 4`: a zero width falls back to 4. */
  function LineWidth(size: real): real {
    if size == 0.0 then 4.0 else size
  }

  /** `color || '#fff'`: an empty colour falls back to white. */
  function StrokeColor(color: string): string {
    if color == "" then "#fff" else color
  }
}

=== FILE: js.dfy ===
/**
 * JavaScript values as they reach the drawing core: optional fields,
 * numbers that may be NaN or infinite, and arrays of coordinates.
 */
module Js {

  /** A field that may be absent (`undefined`) or present. */
  datatype Option<+T> = None | Some(value: T)

  /** A JavaScript number: finite, NaN or one of the two infinities. */
  datatype JsNumber = Finite(v: real) | NaN | PosInf | NegInf

  /** A JavaScript array of numbers; a point is sent as `[x, y]`. */
  type Coords = seq<real>

  /** `Number.isFinite(v)`, where a missing or non-number value is `None`. */
  predicate IsFinite(v: Option<JsNumber>) {
    v.Some? && v.value.Finite?
  }

  /** Truthiness of an optional number: absent, NaN and (plus or minus) zero are falsy. */
  predicate TruthyNumber(v: Option<JsNumber>) {
    match v
    case None => false
    case Some(Finite(x)) => x != 0.0
    case Some(NaN) => false
    case Some(_) => true
  }

  /** Truthiness of an optional string: absent and the empty string are falsy. */
  predicate TruthyString(s: Option<string>) {
    s.Some? && s.value != ""
  }

  /** `a || fallback` for a string-valued field. */
  function OrString(a: Option<string>, fallback: string): string {
    if TruthyString(a) then a.value else fallback
  }

  /** `Math.min(a, b)`: NaN is contagious, otherwise the smaller value. */
  function JsMin(a: JsNumber, b: JsNumber): JsNumber {
    if a.NaN? || b.NaN? then NaN
    else if a.NegInf? || b.NegInf? then NegInf
    else if a.PosInf? then b
    else if b.PosInf? then a
    else if a.v <= b.v then a else b
  }

  /** `Math.max(a, b)`: NaN is contagious, otherwise the larger value. */
  function JsMax(a: JsNumber, b: JsNumber): JsNumber {
    if a.NaN? || b.NaN? then NaN
    else if a.PosInf? || b.PosInf? then PosInf
    else if a.NegInf? then b
    else if b.NegInf? then a
    else if a.v >= b.v then a else b
  }

  /** `a.slice(0, 2)`: the first two entries, or all of them when fewer. */
  function Take2(a: Coords): (r: Coords)
    ensures |r| == if |a| < 2 then |a| else 2
    ensures r <= a
  {
    if |a| < 2 then a else a[..2]
  }
}

=== FILE: op_ids.dfy ===
/**
 * Operation ids `${Date.now()}-${seq}-${nonce}`: the room's sequence
 * number can be read back from an id alone.
 */
module OpIds {
  import opened Js
  import opened Decimal

  /** The id the log assigns to the operation with sequence number `n`. */
  function FormatId(now: nat, n: nat, nonce: string): string {
    Digits(now) + "-" + Digits(n) + "-" + nonce
  }

  /** Position of the first `c` in `s`. */
  function IndexOf(s: string, c: char): (r: Option<nat>)
    ensures r.None? <==> c !in s
    ensures r.Some? ==> r.value < |s| && s[r.value] == c && c !in s[..r.value]
  {
    if |s| == 0 then None
    else if s[0] == c then Some(0)
    else
      match IndexOf(s[1..], c)
      case None => None
      case Some(i) =>
        assert s[..i + 1] == [s[0]] + s[1..][..i];
        Some(i + 1)
  }

  /** The sequence number embedded in an id: the numeral between its first two dashes. */
  function SeqOf(id: string): Option<nat> {
    match IndexOf(id, '-')
    case None => None
    case Some(i) =>
      var rest := id[i + 1..];
      match IndexOf(rest, '-')
      case None => None
      case Some(j) =>
        var field := rest[..j];
        if |field| > 0 && AllDigits(field) then Some(Value(field)) else None
  }

  lemma DigitsHaveNoDash(n: nat)
    ensures '-' !in Digits(n)
  {
    assert !IsDigit('-');
  }

  lemma {:induction false} IndexOfAfter(a: string, b: string, c: char)
    requires c !in a
    ensures IndexOf(a + [c] + b, c) == Some(|a|)
  {
    var s := a + [c] + b;
    var r := IndexOf(s, c);
    assert s[|a|] == c;
    assert r.Some?;
    assert s[..|a|] == a;
  }

  /** Round trip: the sequence number put into an id is the one read back. */
  lemma SeqOfFormatId(now: nat, n: nat, nonce: string)
    ensures SeqOf(FormatId(now, n, nonce)) == Some(n)
  {
    var id := FormatId(now, n, nonce);
    DigitsHaveNoDash(now);
    DigitsHaveNoDash(n);
    assert id == Digits(now) + ['-'] + (Digits(n) + "-" + nonce);
    IndexOfAfter(Digits(now), Digits(n) + "-" + nonce, '-');
    var rest := id[|Digits(now)| + 1..];
    assert rest == Digits(n) + ['-'] + nonce;
    IndexOfAfter(Digits(n), nonce, '-');
    assert rest[..|Digits(n)|] == Digits(n);
    ValueOfDigits(n);
  }

  /** Ids built from different sequence numbers differ, whatever the clock and nonce. */
  lemma DistinctSeqDistinctIds(t1: nat, n1: nat, x1: string, t2: nat, n2: nat, x2: string)
    requires n1 != n2
    ensures FormatId(t1, n1, x1) != FormatId(t2, n2, x2)
  {
    SeqOfFormatId(t1, n1, x1);
    SeqOfFormatId(t2, n2, x2);
  }
}

=== FILE: ordered_map.dfy ===
/**
 * A JavaScript `Map`: an association list kept in insertion order.
 * `set` on a present key replaces the value in place; `delete` removes it.
 */
module OrderedMap {
  import opened Js

  datatype Entry<K, V> = Entry(key: K, value: V)

  predicate HasKey<K(==, !new), V>(m: seq<Entry<K, V>>, k: K) {
    exists i | 0 <= i < |m| :: m[i].key == k
  }

  /** `map.get(k)`: the value of the first entry with key `k`. */
  function Get<K(==, !new), V>(m: seq<Entry<K, V>>, k: K): (r: Option<V>)
    ensures r.None? <==> !HasKey(m, k)
  {
    if |m| == 0 then None
    else if m[0].key == k then Some(m[0].value)
    else
      assert HasKey(m, k) <==> HasKey(m[1..], k) by {
        if HasKey(m[1..], k) {
          var i :| 0 <= i < |m[1..]| && m[1..][i].key == k;
          assert m[i + 1].key == k;
        }
      }
      Get(m[1..], k)
  }

  /** `Array.from(map.values())`, in insertion order. */
  function Values<K, V>(m: seq<Entry<K, V>>): (r: seq<V>)
    ensures |r| == |m|
    ensures forall i | 0 <= i < |m| :: r[i] == m[i].value
  {
    seq(|m|, i requires 0 <= i < |m| => m[i].value)
  }

  /** `map.set(k, v)`. */
  function Set<K(==, !new), V>(m: seq<Entry<K, V>>, k: K, v: V): (r: seq<Entry<K, V>>)
    ensures Get(r, k) == Some(v)
    ensures forall k' | k' != k :: Get(r, k') == Get(m, k')
    ensures !HasKey(m, k) ==> r == m + [Entry(k, v)]
    ensures HasKey(m, k) ==> |r| == |m| && forall i | 0 <= i < |m| :: r[i].key == m[i].key
  {
    if |m| == 0 then [Entry(k, v)]
    else if m[0].key == k then [Entry(k, v)] + m[1..]
    else
      var tail := Set(m[1..], k, v);
      assert HasKey(m, k) <==> HasKey(m[1..], k) by {
        if HasKey(m[1..], k) {
          var i :| 0 <= i < |m[1..]| && m[1..][i].key == k;
          assert m[i + 1].key == k;
        }
      }
      assert !HasKey(m, k) ==> [m[0]] + (m[1..] + [Entry(k, v)]) == m + [Entry(k, v)];
      [m[0]] + tail
  }

  /** `map.delete(k)`. */
  function Delete<K(==, !new), V>(m: seq<Entry<K, V>>, k: K): (r: seq<Entry<K, V>>)
    ensures !HasKey(r, k)
    ensures forall k' | k' != k :: Get(r, k') == Get(m, k')
    ensures |r| <= |m|
    ensures !HasKey(m, k) ==> r == m
  {
    if |m| == 0 then []
    else if m[0].key == k then Delete(m[1..], k)
    else [m[0]] + Delete(m[1..], k)
  }
}

=== FILE: protocol.dfy ===
/**
 * The room-scoped event protocol between a drawing client and the room
 * authority: the records each side sends, and the audience of every
 * outbound server message.
 */
module Protocol {
  import opened Js

  /** A connected participant; `id` is a random token chosen on connection. */
  datatype User = User(id: string, name: string, color: string)

  /** A committed stroke operation, as the log stores it and as it is broadcast. */
  datatype Op = Op(
    id: string,
    userId: string,
    tool: string,
    color: string,
    size: real,
    points: seq<Coords>,
    committedAt: nat)

  /** The normalised description of a stroke that has begun, relayed to other clients. */
  datatype Meta = Meta(tool: string, color: string, size: real, start: Coords, t: nat)

  /** The last known cursor of a user, as the room stores it. */
  datatype Cursor = Cursor(x: real, y: real, tool: Option<string>, color: Option<string>)

  // Client-to-server payloads. Every field may be missing or of the wrong
  // shape: `None` stands for a missing field, and for `start`, `p` and
  // `points` also for a value that is not an array.

  datatype CursorPayload = CursorPayload(
    x: Option<JsNumber>, y: Option<JsNumber>, tool: Option<string>, color: Option<string>)

  datatype BeginMsg = BeginMsg(
    tempId: Option<string>, tool: Option<string>, color: Option<string>,
    size: Option<JsNumber>, start: Option<Coords>)

  datatype PointMsg = PointMsg(tempId: Option<string>, p: Option<Coords>)

  datatype EndMsg = EndMsg(
    tempId: Option<string>, tool: Option<string>, color: Option<string>,
    size: Option<JsNumber>, points: Option<seq<Coords>>)

  /** An event one connection delivers to its room; a missing cursor payload is `CursorMove(None)`. */
  datatype Event =
    | CursorMove(payload: Option<CursorPayload>)
    | StrokeBegin(begin: BeginMsg)
    | StrokePoint(point: PointMsg)
    | StrokeEnd(end: EndMsg)
    | UndoRequest
    | RedoRequest
    | Disconnect

  /** Server-to-client messages. */
  datatype ServerMsg =
    | Init(self: User, users: seq<User>, ops: seq<Op>)
    | UserJoin(user: User)
    | UserLeave(userId: string)
    | CursorRelay(userId: string, x: real, y: real, tool: Option<string>, color: Option<string>)
    | BeginRelay(userId: string, tempId: Option<string>, meta: Meta)
    | PointRelay(userId: string, tempId: Option<string>, p: Coords, t: nat)
    | Commit(userId: string, id: string, tempId: Option<string>, op: Op)
    | Revoke(id: string)
    | Reapply(op: Op)

  /**
   * Who receives a message: the sending connection only (`socket.emit`),
   * every other connection (`socket.broadcast.emit`) or everyone (`io.emit`).
   */
  datatype Audience = Self | Others | All

  datatype Outbound = Outbound(to: Audience, msg: ServerMsg)
}

=== FILE: rooms.dfy ===
/**
 * The room authority: one step function per event a connection delivers,
 * each returning the new room and the messages it sends, tagged with
 * their audience; and the registry that maps room ids to rooms.
 */
module Rooms {
  import opened Js
  import opened Protocol
  import opened DrawingState
  import opened Decimal
  import OrderedMap

  /** The onboarding colours, handed out by join order. */
  const Palette: seq<string> := [
    "#ff6b6b", "#feca57", "#48dbfb", "#1dd1a1", "#5f27cd",
    "#ff9ff3", "#54a0ff", "#00d2d3", "#c8d6e5", "#576574"
  ]

  datatype Room = Room(id: string, state: State)

  /** A new room: an empty log, no redo stack, no users or cursors, and the sequence at 0. */
  function NewRoom(id: string): (r: Room)
    ensures r.id == id
    ensures r.state.ops == [] && r.state.undone == [] && r.state.nextSeq == 0
    ensures r.state.users == [] && r.state.cursors == map[]
    ensures LogInv(r.state)
  {
    InitialLogInv();
    Room(id, Initial())
  }

  /** What the handlers of one connection close over: its socket id and its user. */
  datatype Connection = Connection(socketId: string, user: User)

  function UserName(n: nat): string {
    "User-" + Digits(n)
  }

  /**
   * `handleConnection`, up to the registration of the handlers: the user
   * is named and coloured after the number of users already present, gets
   * an `init` with an EMPTY op list whatever the log holds, and is
   * announced to the others.
   */
  function Join(room: Room, socketId: string, userId: string): (r: (Room, Connection, seq<Outbound>))
    ensures
      var n := |room.state.users|;
      var user := r.1.user;
      && user == User(userId, "User-" + Digits(n + 1), Palette[n % |Palette|])
      && r.1.socketId == socketId
      && r.0.id == room.id
      && r.0.state == room.state.(users := OrderedMap.Set(room.state.users, socketId, user))
      && OrderedMap.Get(r.0.state.users, socketId) == Some(user)
      && r.2 == [Outbound(Self, Init(user, OrderedMap.Values(r.0.state.users), [])),
                 Outbound(Others, UserJoin(user))]
  {
    var n := |room.state.users|;
    var user := User(userId, UserName(n + 1), Palette[n % |Palette|]);
    var users := OrderedMap.Set(room.state.users, socketId, user);
    (room.(state := room.state.(users := users)),
     Connection(socketId, user),
     [Outbound(Self, Init(user, OrderedMap.Values(users), [])), Outbound(Others, UserJoin(user))])
  }

  /** A cursor is stored and relayed to the others only when both coordinates are finite numbers. */
  function OnCursor(room: Room, conn: Connection, payload: Option<CursorPayload>): (r: (Room, seq<Outbound>))
    ensures
      var p := if payload.Some? then payload.value else CursorPayload(None, None, None, None);
      && (!IsFinite(p.x) || !IsFinite(p.y) ==> r == (room, []))
      && (IsFinite(p.x) && IsFinite(p.y) ==>
            var c := Cursor(p.x.value.v, p.y.value.v, p.tool, p.color);
            && r.0 == room.(state := room.state.(cursors := room.state.cursors[conn.user.id := c]))
            && r.1 == [Outbound(Others, CursorRelay(conn.user.id, c.x, c.y, c.tool, c.color))])
  {
    var p := if payload.Some? then payload.value else CursorPayload(None, None, None, None);
    if !IsFinite(p.x) || !IsFinite(p.y) then (room, [])
    else
      var c := Cursor(p.x.value.v, p.y.value.v, p.tool, p.color);
      (room.(state := room.state.(cursors := room.state.cursors[conn.user.id := c])),
       [Outbound(Others, CursorRelay(conn.user.id, c.x, c.y, p.tool, p.color))])
  }

  /** The start point relayed with a begun stroke: its first two coordinates, or the origin. */
  function StartOf(start: Option<Coords>): (r: Coords)
    ensures start.Some? ==> r == Take2(start.value)
    ensures start.None? ==> r == [0.0, 0.0]
  {
    if start.Some? then Take2(start.value) else [0.0, 0.0]
  }

  /** `stroke:begin`: relays the normalised meta to the others; the room does not change. */
  function OnBegin(room: Room, conn: Connection, msg: BeginMsg, env: Env): (r: (Room, seq<Outbound>))
    ensures r.0 == room
    ensures |r.1| == 1 && r.1[0].to == Others && r.1[0].msg.BeginRelay?
    ensures
      var relay := r.1[0].msg;
      && relay.userId == conn.user.id && relay.tempId == msg.tempId
      && relay.meta.tool == NormalizeTool(msg.tool)
      && relay.meta.color == NormalizeColor(msg.color, conn.user.color)
      && relay.meta.size == NormalizeSize(msg.size)
      && relay.meta.start == StartOf(msg.start)
      && relay.meta.t == env.now
  {
    var meta := Meta(NormalizeTool(msg.tool), NormalizeColor(msg.color, conn.user.color),
                     NormalizeSize(msg.size), StartOf(msg.start), env.now);
    (room, [Outbound(Others, BeginRelay(conn.user.id, msg.tempId, meta))])
  }

  /** `stroke:point`: a point that is not an array is dropped; otherwise its first two coordinates go to the others. */
  function OnPoint(room: Room, conn: Connection, msg: PointMsg, env: Env): (r: (Room, seq<Outbound>))
    ensures r.0 == room
    ensures msg.p.None? ==> r.1 == []
    ensures msg.p.Some? ==> r.1 == [Outbound(Others, PointRelay(conn.user.id, msg.tempId, Take2(msg.p.value), env.now))]
  {
    if msg.p.None? then (room, [])
    else (room, [Outbound(Others, PointRelay(conn.user.id, msg.tempId, Take2(msg.p.value), env.now))])
  }

  /** `stroke:end`: appends one op and sends the commit to everyone, the sender included. */
  function OnEnd(room: Room, conn: Connection, msg: EndMsg, env: Env): (r: (Room, seq<Outbound>))
    ensures
      var (st, op) := CreateOperation(room.state, conn.user, msg, env);
      && r.0 == room.(state := st)
      && r.1 == [Outbound(All, Commit(conn.user.id, op.id, msg.tempId, op))]
    ensures |r.0.state.ops| == |room.state.ops| + 1
    ensures r.0.state.ops[..|room.state.ops|] == room.state.ops
    ensures r.1[0].msg.op == r.0.state.ops[|room.state.ops|]
    ensures r.1[0].msg.op.points == NormalizePoints(msg.points)
  {
    var (st, op) := CreateOperation(room.state, conn.user, msg, env);
    assert st.ops[..|room.state.ops|] == room.state.ops;
    (room.(state := st), [Outbound(All, Commit(conn.user.id, op.id, msg.tempId, op))])
  }

  /** `undo`: a revoke of the removed op goes to everyone, and nothing at all when the log is empty. */
  function OnUndo(room: Room): (r: (Room, seq<Outbound>))
    ensures r.0 == room.(state := Undo(room.state).0)
    ensures room.state.ops == [] ==> r == (room, [])
    ensures room.state.ops != [] ==>
      r.1 == [Outbound(All, Revoke(room.state.ops[|room.state.ops| - 1].id))]
  {
    var (st, op) := Undo(room.state);
    (room.(state := st), if op.Some? then [Outbound(All, Revoke(op.value.id))] else [])
  }

  /** `redo`: a reapply of the restored op goes to everyone, and nothing at all when the redo stack is empty. */
  function OnRedo(room: Room): (r: (Room, seq<Outbound>))
    ensures r.0 == room.(state := Redo(room.state).0)
    ensures room.state.undone == [] ==> r == (room, [])
    ensures room.state.undone != [] ==>
      r.1 == [Outbound(All, Reapply(room.state.undone[|room.state.undone| - 1]))]
  {
    var (st, op) := Redo(room.state);
    (room.(state := st), if op.Some? then [Outbound(All, Reapply(op.value))] else [])
  }

  /**
   * `disconnect`: the user and their cursor go, everyone is told, and the
   * log is reset when nobody is left.
   */
  function OnDisconnect(room: Room, conn: Connection): (r: (Room, seq<Outbound>))
    ensures !OrderedMap.HasKey(r.0.state.users, conn.socketId)
    ensures forall s | s != conn.socketId ::
      OrderedMap.Get(r.0.state.users, s) == OrderedMap.Get(room.state.users, s)
    ensures r.0.state.cursors == room.state.cursors - {conn.user.id}
    ensures r.1 == [Outbound(All, UserLeave(conn.user.id))]
    ensures r.0.state.users == [] ==> r.0.state.ops == [] && r.0.state.undone == [] && r.0.state.nextSeq == 0
    ensures r.0.state.users != [] ==>
      && r.0.state.ops == room.state.ops && r.0.state.undone == room.state.undone
      && r.0.state.nextSeq == room.state.nextSeq
  {
    var st := room.state.(users := OrderedMap.Delete(room.state.users, conn.socketId),
                          cursors := room.state.cursors - {conn.user.id});
    (room.(state := if |st.users| == 0 then Reset(st) else st), [Outbound(All, UserLeave(conn.user.id))])
  }

  /**
   * The handler a connection's event reaches. Live relays (cursor, begin,
   * point) go to the others only and leave the log alone; every change of
   * the log is announced to everyone, the sender included; nothing is ever
   * sent to the sender alone.
   */
  function Handle(room: Room, conn: Connection, ev: Event, env: Env): (r: (Room, seq<Outbound>))
    ensures |r.1| <= 1
    ensures ev.CursorMove? || ev.StrokeBegin? || ev.StrokePoint? ==>
      && r.0.state.ops == room.state.ops && r.0.state.undone == room.state.undone
      && (forall i | 0 <= i < |r.1| :: r.1[i].to == Others)
    ensures ev.StrokeEnd? || ev.UndoRequest? || ev.RedoRequest? || ev.Disconnect? ==>
      forall i | 0 <= i < |r.1| :: r.1[i].to == All
    ensures r.0.state.ops != room.state.ops ==> |r.1| == 1 && r.1[0].to == All
  {
    match ev
    case CursorMove(payload) => OnCursor(room, conn, payload)
    case StrokeBegin(msg) => OnBegin(room, conn, msg, env)
    case StrokePoint(msg) => OnPoint(room, conn, msg, env)
    case StrokeEnd(msg) => OnEnd(room, conn, msg, env)
    case UndoRequest => OnUndo(room)
    case RedoRequest => OnRedo(room)
    case Disconnect => OnDisconnect(room, conn)
  }

  /** Every handler keeps the log invariant: ids in the log and on the redo stack stay unique. */
  lemma HandleKeepsLogInv(room: Room, conn: Connection, ev: Event, env: Env)
    requires LogInv(room.state)
    ensures LogInv(Handle(room, conn, ev, env).0.state)
  {
    match ev
    case StrokeEnd(msg) => CreateOperationKeepsLogInv(room.state, conn.user, msg, env);
    case UndoRequest => UndoKeepsLogInv(room.state);
    case RedoRequest => RedoKeepsLogInv(room.state);
    case Disconnect =>
      var st := room.state.(users := OrderedMap.Delete(room.state.users, conn.socketId),
                            cursors := room.state.cursors - {conn.user.id});
      ResetKeepsLogInv(st);
    case _ =>
  }

  lemma JoinKeepsLogInv(room: Room, socketId: string, userId: string)
    requires LogInv(room.state)
    ensures LogInv(Join(room, socketId, userId).0.state)
  {
  }

  // ---- Registry ----

  datatype Manager = Manager(rooms: map<string, Room>)

  /** `getRoom`: the room registered under `id`, created empty on first reference. */
  function GetRoom(m: Manager, id: string): (r: (Manager, Room))
    ensures id in r.0.rooms && r.0.rooms[id] == r.1
    ensures id in m.rooms ==> r == (m, m.rooms[id])
    ensures id !in m.rooms ==> r.1 == NewRoom(id) && r.0.rooms == m.rooms[id := r.1]
  {
    if id in m.rooms then (m, m.rooms[id])
    else
      var room := NewRoom(id);
      (Manager(m.rooms[id := room]), room)
  }

  /** Asking twice for the same id gives the same room and changes nothing more. */
  lemma GetRoomTwice(m: Manager, id: string)
    ensures GetRoom(GetRoom(m, id).0, id) == GetRoom(m, id)
    ensures forall other | other in m.rooms :: other in GetRoom(m, id).0.rooms && GetRoom(m, id).0.rooms[other] == m.rooms[other]
  {
  }

  /** Every connection of the server joins the same room. */
  const DefaultRoomId: string := "default"

  /**
   * The server's connection handler: looks up the default room and joins
   * it; the registry keeps the joined room (the source shares the Room
   * object by reference).
   */
  function Connect(m: Manager, socketId: string, userId: string): (r: (Manager, Connection, seq<Outbound>))
    ensures r.0.rooms.Keys == m.rooms.Keys + {DefaultRoomId}
    ensures forall id | id in m.rooms && id != DefaultRoomId :: r.0.rooms[id] == m.rooms[id]
    ensures OrderedMap.Get(r.0.rooms[DefaultRoomId].state.users, socketId) == Some(r.1.user)
    ensures DefaultRoomId in m.rooms ==>
      && r.0.rooms[DefaultRoomId].state.ops == m.rooms[DefaultRoomId].state.ops
      && r.0.rooms[DefaultRoomId].state.undone == m.rooms[DefaultRoomId].state.undone
      && (forall s | s != socketId ::
            OrderedMap.Get(r.0.rooms[DefaultRoomId].state.users, s) == OrderedMap.Get(m.rooms[DefaultRoomId].state.users, s))
      && var n := |m.rooms[DefaultRoomId].state.users|;
         r.1.user == User(userId, "User-" + Digits(n + 1), Palette[n % |Palette|])
    ensures DefaultRoomId !in m.rooms ==>
      && r.0.rooms[DefaultRoomId].state.users == [OrderedMap.Entry(socketId, r.1.user)]
      && r.0.rooms[DefaultRoomId].state.ops == []
      && r.1.user.name == "User-1" && r.1.user.color == Palette[0]
  {
    var (m1, room) := GetRoom(m, DefaultRoomId);
    var (joined, conn, out) := Join(room, socketId, userId);
    JoinKeepsOthers(room, socketId, userId);
    if DefaultRoomId in m.rooms then
      (Manager(m1.rooms[DefaultRoomId := joined]), conn, out)
    else
      FirstUser(room, socketId, userId);
      (Manager(m1.rooms[DefaultRoomId := joined]), conn, out)
  }

  /** The first user of a room is `User-1`, in the first palette colour, and is its only user. */
  lemma FirstUser(room: Room, socketId: string, userId: string)
    requires room.state.users == []
    ensures Join(room, socketId, userId).1.user.name == "User-1"
    ensures Join(room, socketId, userId).1.user.color == Palette[0]
    ensures Join(room, socketId, userId).0.state.users == [OrderedMap.Entry(socketId, Join(room, socketId, userId).1.user)]
  {
    assert Digits(1) == "1";
  }

  /** Joining touches only the joiner's entry: the log, the redo stack and every other socket's user stay. */
  lemma JoinKeepsOthers(room: Room, socketId: string, userId: string)
    ensures
      var (joined, conn, _) := Join(room, socketId, userId);
      && joined.state.ops == room.state.ops && joined.state.undone == room.state.undone
      && OrderedMap.Get(joined.state.users, socketId) == Some(conn.user)
      && (forall s | s != socketId :: OrderedMap.Get(joined.state.users, s) == OrderedMap.Get(room.state.users, s))
      && (room.state.users == [] ==> joined.state.users == [OrderedMap.Entry(socketId, conn.user)])
  {
  }

  /**
   * Two connections share the default room: the first stays registered
   * when the second joins, and on a fresh server they are `User-1` and
   * `User-2` in the first two palette colours.
   */
  lemma ConnectTwiceSharesRoom(m: Manager, s1: string, u1: string, s2: string, u2: string)
    requires s1 != s2
    ensures
      var (m1, c1, _) := Connect(m, s1, u1);
      var (m2, c2, _) := Connect(m1, s2, u2);
      && OrderedMap.Get(m2.rooms[DefaultRoomId].state.users, s1) == Some(c1.user)
      && OrderedMap.Get(m2.rooms[DefaultRoomId].state.users, s2) == Some(c2.user)
      && (DefaultRoomId !in m.rooms ==>
            c2.user.name == "User-2" && c2.user.color == Palette[1])
  {
    var (m1, c1, _) := Connect(m, s1, u1);
    var (m2, c2, _) := Connect(m1, s2, u2);
    assert DefaultRoomId in m1.rooms;
    assert OrderedMap.Get(m2.rooms[DefaultRoomId].state.users, s1)
        == OrderedMap.Get(m1.rooms[DefaultRoomId].state.users, s1);
    if DefaultRoomId !in m.rooms {
      SecondUser(m1, s2, u2);
    }
  }

  /** The second user of a room is `User-2`, in the second palette colour. */
  lemma SecondUser(m: Manager, s: string, u: string)
    requires DefaultRoomId in m.rooms && |m.rooms[DefaultRoomId].state.users| == 1
    ensures Connect(m, s, u).1.user.name == "User-2" && Connect(m, s, u).1.user.color == Palette[1]
  {
    assert Digits(2) == "2";
  }
}

=== FILE: sync.dfy ===
/**
 * One room and one observed client, connected by in-order delivery: every
 * message the room sends while handling an action reaches the client
 * immediately and in order when its audience includes the client.
 */
module Sync {
  import opened Js
  import opened Protocol
  import opened DrawingState
  import opened Rooms
  import opened Canvas
  import opened Dispatch
  import opened Geometry
  import OrderedMap

  /** Whether a connection `me` receives a message sent while handling `sender`'s event. */
  predicate Receives(to: Audience, sender: string, me: string) {
    match to
    case Self => sender == me
    case Others => sender != me
    case All => true
  }

  /** The messages of `out` that reach `me`, in order. */
  function Delivered(out: seq<Outbound>, sender: string, me: string): seq<ServerMsg>
    decreases |out|
  {
    if |out| == 0 then []
    else (if Receives(out[0].to, sender, me) then [out[0].msg] else []) + Delivered(out[1..], sender, me)
  }

  /** What happens at the room: a new connection, or an event from a connected socket. */
  datatype Action =
    | Connect(socketId: string, userId: string)
    | Send(socketId: string, ev: Event, env: Env)

  function SenderOf(a: Action): string {
    a.socketId
  }

  /**
   * The room's response to an action. The handlers of a socket are those
   * registered at its join, closed over its user; a socket that is not
   * connected sends nothing.
   */
  function ServerStep(room: Room, a: Action): (Room, seq<Outbound>) {
    match a
    case Connect(sid, uid) =>
      var (r, _, out) := Join(room, sid, uid);
      (r, out)
    case Send(sid, ev, env) =>
      match OrderedMap.Get(room.state.users, sid)
      case None => (room, [])
      case Some(user) => Handle(room, Connection(sid, user), ev, env)
  }

  lemma ServerStepKeepsLogInv(room: Room, a: Action)
    requires LogInv(room.state)
    ensures LogInv(ServerStep(room, a).0.state)
  {
    match a
    case Connect(sid, uid) => JoinKeepsLogInv(room, sid, uid);
    case Send(sid, ev, env) =>
      match OrderedMap.Get(room.state.users, sid)
      case None =>
      case Some(user) => HandleKeepsLogInv(room, Connection(sid, user), ev, env);
  }

  /** The room and the page of the client connected as socket `me`. */
  datatype World = World(room: Room, me: string, app: App)

  function Step(w: World, a: Action): World {
    var (room, out) := ServerStep(w.room, a);
    World(room, w.me, OnMessages(w.app, Delivered(out, SenderOf(a), w.me)))
  }

  function Run(w: World, trace: seq<Action>): World
    decreases |trace|
  {
    if |trace| == 0 then w else Run(Step(w, trace[0]), trace[1..])
  }

  /** The observed client stays connected: its socket neither reconnects nor disconnects. */
  predicate KeepsClient(a: Action, me: string) {
    match a
    case Connect(sid, _) => sid != me
    case Send(sid, ev, _) => sid != me || !ev.Disconnect?
  }

  /** The client `me` is connected to `room` and its op list is the room's log. */
  ghost predicate Synced(room: Room, me: string, app: App) {
    && LogInv(room.state)
    && OrderedMap.HasKey(room.state.users, me)
    && app.view.ops == room.state.ops
  }

  ghost predicate InSync(w: World) {
    Synced(w.room, w.me, w.app)
  }

  /** Messages that leave a client's op list alone. */
  predicate Quiet(m: ServerMsg) {
    m.UserJoin? || m.UserLeave? || m.CursorRelay? || m.BeginRelay? || m.PointRelay?
  }

  lemma {:induction false} QuietKeepsOps(app: App, msgs: seq<ServerMsg>)
    requires forall i | 0 <= i < |msgs| :: Quiet(msgs[i])
    ensures OnMessages(app, msgs).view.ops == app.view.ops
    decreases |msgs|
  {
    if |msgs| > 0 {
      QuietKeepsOps(OnMessage(app, msgs[0]), msgs[1..]);
    }
  }

  lemma DeliveredOne(o: Outbound, sender: string, me: string)
    ensures Delivered([o], sender, me) == if Receives(o.to, sender, me) then [o.msg] else []
  {
    assert [o][1..] == [];
  }

  lemma DeliveredTwo(o1: Outbound, o2: Outbound, sender: string, me: string)
    ensures Delivered([o1, o2], sender, me) == Delivered([o1], sender, me) + Delivered([o2], sender, me)
  {
    assert [o1, o2][1..] == [o2];
    assert [o1][1..] == [];
  }

  lemma OnMessagesOne(app: App, m: ServerMsg)
    ensures OnMessages(app, [m]) == OnMessage(app, m)
  {
    assert [m][1..] == [];
  }

  /** An op whose id occurs nowhere before it is the first op with that id. */
  lemma FindLast(ops: seq<Op>)
    requires ops != []
    requires forall i | 0 <= i < |ops| - 1 :: ops[i].id != ops[|ops| - 1].id
    ensures FindIndex(ops, ops[|ops| - 1].id) == Some(|ops| - 1)
  {
  }

  /** Revoking the newest op of a log whose ids are unique removes exactly that op. */
  lemma RevokeNewest(v: View, st: State)
    requires LogInv(st) && st.ops != [] && v.ops == st.ops
    ensures RevokeOp(v, st.ops[|st.ops| - 1].id).ops == st.ops[..|st.ops| - 1]
  {
    var n := |st.ops|;
    NewestIdIsUnique(st);
    forall i | 0 <= i < n - 1
      ensures st.ops[i].id != st.ops[n - 1].id
    {
      assert Ids(st.ops[..n - 1])[i] == st.ops[i].id;
    }
    FindLast(st.ops);
    assert st.ops[..n - 1] + st.ops[n..] == st.ops[..n - 1];
  }

  /** Another socket joins: the client only hears of the new user. */
  lemma JoinKeepsSync(room: Room, me: string, app: App, sid: string, uid: string)
    requires Synced(room, me, app) && sid != me
    ensures
      var (r, _, out) := Join(room, sid, uid);
      Synced(r, me, OnMessages(app, Delivered(out, sid, me)))
  {
    JoinKeepsLogInv(room, sid, uid);
    var (r, conn, out) := Join(room, sid, uid);
    DeliveredTwo(out[0], out[1], sid, me);
    DeliveredOne(out[0], sid, me);
    DeliveredOne(out[1], sid, me);
    QuietKeepsOps(app, Delivered(out, sid, me));
    assert OrderedMap.Get(r.state.users, me) == OrderedMap.Get(room.state.users, me);
  }

  /** Cursor moves and live stroke relays do not touch the log or the client's ops. */
  lemma RelayKeepsSync(room: Room, conn: Connection, ev: Event, env: Env, me: string, app: App)
    requires Synced(room, me, app)
    requires ev.CursorMove? || ev.StrokeBegin? || ev.StrokePoint?
    ensures
      var (r, out) := Handle(room, conn, ev, env);
      Synced(r, me, OnMessages(app, Delivered(out, conn.socketId, me)))
  {
    var (r, out) := Handle(room, conn, ev, env);
    assert r.state.ops == room.state.ops && r.state.users == room.state.users && LogInv(r.state);
    assert |out| <= 1 && (|out| == 1 ==> Quiet(out[0].msg));
    if |out| == 1 {
      assert out == [out[0]];
      DeliveredOne(out[0], conn.socketId, me);
    }
    QuietKeepsOps(app, Delivered(out, conn.socketId, me));
  }

  /** A finished stroke is appended by the room and, through its commit, by the client. */
  lemma EndKeepsSync(room: Room, conn: Connection, msg: EndMsg, env: Env, me: string, app: App)
    requires Synced(room, me, app)
    ensures
      var (r, out) := OnEnd(room, conn, msg, env);
      Synced(r, me, OnMessages(app, Delivered(out, conn.socketId, me)))
  {
    CreateOperationKeepsLogInv(room.state, conn.user, msg, env);
    var (r, out) := OnEnd(room, conn, msg, env);
    DeliveredOne(out[0], conn.socketId, me);
    OnMessagesOne(app, out[0].msg);
    assert r.state.ops == room.state.ops + [out[0].msg.op];
  }

  /** An undo drops the newest op at the room and, through its revoke, at the client. */
  lemma UndoKeepsSync(room: Room, me: string, app: App, sid: string)
    requires Synced(room, me, app)
    ensures
      var (r, out) := OnUndo(room);
      Synced(r, me, OnMessages(app, Delivered(out, sid, me)))
  {
    UndoKeepsLogInv(room.state);
    var (r, out) := OnUndo(room);
    if room.state.ops != [] {
      DeliveredOne(out[0], sid, me);
      OnMessagesOne(app, out[0].msg);
      RevokeNewest(app.view, room.state);
    }
  }

  /** A redo appends the restored op at the room and, through its reapply, at the client. */
  lemma RedoKeepsSync(room: Room, me: string, app: App, sid: string)
    requires Synced(room, me, app)
    ensures
      var (r, out) := OnRedo(room);
      Synced(r, me, OnMessages(app, Delivered(out, sid, me)))
  {
    RedoKeepsLogInv(room.state);
    var (r, out) := OnRedo(room);
    if room.state.undone != [] {
      DeliveredOne(out[0], sid, me);
      OnMessagesOne(app, out[0].msg);
    }
  }

  /** Another socket leaves: the client stays registered, so the log is not reset. */
  lemma LeaveKeepsSync(room: Room, conn: Connection, me: string, app: App)
    requires Synced(room, me, app) && conn.socketId != me
    ensures
      var (r, out) := OnDisconnect(room, conn);
      Synced(r, me, OnMessages(app, Delivered(out, conn.socketId, me)))
  {
    HandleKeepsLogInv(room, conn, Disconnect, Env(0, 0, ""));
    var (r, out) := OnDisconnect(room, conn);
    DeliveredOne(out[0], conn.socketId, me);
    QuietKeepsOps(app, Delivered(out, conn.socketId, me));
    assert OrderedMap.Get(r.state.users, me) == OrderedMap.Get(room.state.users, me);
  }

  /** One action keeps the client in sync. */
  lemma StepKeepsSync(w: World, a: Action)
    requires InSync(w)
    requires KeepsClient(a, w.me)
    ensures InSync(Step(w, a))
  {
    match a
    case Connect(sid, uid) =>
      JoinKeepsSync(w.room, w.me, w.app, sid, uid);
    case Send(sid, ev, env) =>
      match OrderedMap.Get(w.room.state.users, sid)
      case None =>
      case Some(user) =>
        var conn := Connection(sid, user);
        match ev
        case CursorMove(_) => RelayKeepsSync(w.room, conn, ev, env, w.me, w.app);
        case StrokeBegin(_) => RelayKeepsSync(w.room, conn, ev, env, w.me, w.app);
        case StrokePoint(_) => RelayKeepsSync(w.room, conn, ev, env, w.me, w.app);
        case StrokeEnd(msg) => EndKeepsSync(w.room, conn, msg, env, w.me, w.app);
        case UndoRequest => UndoKeepsSync(w.room, w.me, w.app, sid);
        case RedoRequest => RedoKeepsSync(w.room, w.me, w.app, sid);
        case Disconnect => LeaveKeepsSync(w.room, conn, w.me, w.app);
  }

  lemma {:induction false} RunKeepsSync(w: World, trace: seq<Action>)
    requires InSync(w)
    requires forall i | 0 <= i < |trace| :: KeepsClient(trace[i], w.me)
    ensures InSync(Run(w, trace))
    decreases |trace|
  {
    if |trace| > 0 {
      StepKeepsSync(w, trace[0]);
      RunKeepsSync(Step(w, trace[0]), trace[1..]);
    }
  }

  /** The client `me` joins the room; it handles what the join sends it. */
  function JoinWorld(room: Room, me: string, userId: string, app: App): World {
    var (r, _, out) := Join(room, me, userId);
    World(r, me, OnMessages(app, Delivered(out, me, me)))
  }

  /** The joining client hears only its own `init`, which empties its op list. */
  lemma JoinDeliversInit(room: Room, me: string, userId: string, app: App)
    ensures
      var (r, _, out) := Join(room, me, userId);
      && Delivered(out, me, me) == [out[0].msg]
      && OnMessages(app, Delivered(out, me, me)).view.ops == []
  {
    var (r, conn, out) := Join(room, me, userId);
    DeliveredTwo(out[0], out[1], me, me);
    DeliveredOne(out[0], me, me);
    DeliveredOne(out[1], me, me);
    OnMessagesOne(app, out[0].msg);
  }

  /** A client joining an empty log starts in sync: its `init` carries no ops, and neither does the log. */
  lemma JoinEmptyLogInSync(room: Room, me: string, userId: string, app: App)
    requires LogInv(room.state) && room.state.ops == []
    ensures InSync(JoinWorld(room, me, userId, app))
  {
    JoinKeepsLogInv(room, me, userId);
    JoinDeliversInit(room, me, userId, app);
  }

  /**
   * Under in-order delivery, a client that joined while the log was empty
   * keeps exactly the room's log for as long as it stays connected,
   * whatever the other connections do.
   */
  lemma ClientTracksLog(room: Room, me: string, userId: string, app: App, trace: seq<Action>)
    requires LogInv(room.state) && room.state.ops == []
    requires forall i | 0 <= i < |trace| :: KeepsClient(trace[i], me)
    ensures
      var w := Run(JoinWorld(room, me, userId, app), trace);
      w.app.view.ops == w.room.state.ops
  {
    JoinEmptyLogInSync(room, me, userId, app);
    RunKeepsSync(JoinWorld(room, me, userId, app), trace);
  }

  /** The log invariant holds after any actions, whatever the observed client does. */
  lemma {:induction false} RunKeepsLogInv(w: World, trace: seq<Action>)
    requires LogInv(w.room.state)
    ensures LogInv(Run(w, trace).room.state)
    decreases |trace|
  {
    if |trace| > 0 {
      ServerStepKeepsLogInv(w.room, trace[0]);
      RunKeepsLogInv(Step(w, trace[0]), trace[1..]);
    }
  }

  /**
   * A connection that has left is silent: its cursor is forgotten, and the
   * next event from its socket changes nothing and relays nothing.
   */
  lemma LeaverIsSilent(room: Room, conn: Connection, ev: Event, env: Env)
    ensures
      var r := OnDisconnect(room, conn).0;
      && conn.user.id !in r.state.cursors
      && ServerStep(r, Send(conn.socketId, ev, env)) == (r, [])
  {
  }

  // ---- Where the lists part ----

  /** A late joiner starts with no ops while the log has some. */
  lemma LateJoinerMissesLog(room: Room, me: string, userId: string, app: App)
    requires room.state.ops != []
    ensures JoinWorld(room, me, userId, app).app.view.ops == []
    ensures JoinWorld(room, me, userId, app).room.state.ops == room.state.ops
  {
    JoinDeliversInit(room, me, userId, app);
  }

  /**
   * Another user's undo, seen by a client with no ops: the log loses its
   * newest op and the client, which has nothing to revoke, keeps nothing.
   */
  lemma UndoPassesEmptyClient(w: World, other: string, env: Env)
    requires w.app.view.ops == [] && w.room.state.ops != []
    requires other != w.me && OrderedMap.HasKey(w.room.state.users, other)
    ensures Step(w, Send(other, UndoRequest, env)).app.view.ops == []
    ensures Step(w, Send(other, UndoRequest, env)).room.state.ops == w.room.state.ops[..|w.room.state.ops| - 1]
  {
    var (r1, out) := OnUndo(w.room);
    assert ServerStep(w.room, Send(other, UndoRequest, env)) == (r1, out);
    DeliveredOne(out[0], other, w.me);
    OnMessagesOne(w.app, out[0].msg);
    assert FindIndex(w.app.view.ops, out[0].msg.id) == None;
  }

  /**
   * A late joiner ignores the revoke of an op it never saw: after another
   * user's undo the log has lost its newest op while the client still has
   * nothing, so with two ops in the log the lists still differ.
   */
  lemma LateJoinerIgnoresRevoke(room: Room, me: string, userId: string, app: App, other: string, env: Env)
    requires room.state.ops != []
    requires other != me && OrderedMap.HasKey(room.state.users, other)
    ensures
      var w := Step(JoinWorld(room, me, userId, app), Send(other, UndoRequest, env));
      && w.app.view.ops == []
      && w.room.state.ops == room.state.ops[..|room.state.ops| - 1]
  {
    LateJoinerMissesLog(room, me, userId, app);
    var w0 := JoinWorld(room, me, userId, app);
    assert OrderedMap.Get(w0.room.state.users, other) == OrderedMap.Get(room.state.users, other);
    UndoPassesEmptyClient(w0, other, env);
  }

  /**
   * A duplicated commit makes the lists part: the client appends the same
   * op twice while the log holds it once.
   */
  lemma DuplicateCommitDiverges(room: Room, conn: Connection, msg: EndMsg, env: Env, me: string, app: App)
    requires app.view.ops == room.state.ops
    ensures
      var (r, out) := OnEnd(room, conn, msg, env);
      var msgs := Delivered(out, conn.socketId, me);
      var twice := OnMessages(app, msgs + msgs);
      && twice.view.ops == r.state.ops + [out[0].msg.op]
      && twice.view.ops != r.state.ops
  {
    var (r, out) := OnEnd(room, conn, msg, env);
    var m := out[0].msg;
    DeliveredOne(out[0], conn.socketId, me);
    var once := OnMessage(app, m);
    assert once.view.ops == r.state.ops;
    assert OnMessages(app, [m, m]) == OnMessages(once, [m]) by {
      assert [m, m][1..] == [m];
    }
    OnMessagesOne(once, m);
  }

  /** The clear button empties the client's list and tells nobody, so a non-empty log is left behind. */
  lemma ClearLeavesLogBehind(w: World)
    requires InSync(w) && w.room.state.ops != []
    ensures Press(w.app, ClearButton).0.view.ops == []
    ensures Press(w.app, ClearButton).1 == []
    ensures Press(w.app, ClearButton).0.view.ops != w.room.state.ops
  {
  }

  // ---- A gesture end to end ----

  /**
   * A local gesture (pointer down, moves, pointer up) ends with a
   * `stroke:end` whose handling at the room commits an op with exactly the
   * gesture's points, sent to everyone.
   */
  lemma GestureCommitsItsPoints(v: View, start: Point, tempId: string, path: seq<Point>,
                                room: Room, conn: Connection, env: Env)
    ensures
      var (v1, begin) := PointerDown(v, start, tempId);
      var (v2, moved) := Moves(v1, path);
      var (v3, ended) := PointerUp(v2);
      && |ended| == 1 && ended[0].StrokeEnd?
      && var (r, out) := OnEnd(room, conn, ended[0].end, env);
      && out[0].to == All
      && out[0].msg.op.points == [AsCoords(start)] + PointsOf(path)
      && r.state.ops == room.state.ops + [out[0].msg.op]
  {
    var (v1, begin) := PointerDown(v, start, tempId);
    MovesKeepEveryPoint(v1, path);
  }
}
